=== FILE: README.md ===
# vox-ai in Dafny

A model of the decision and state-transition logic of vox-ai, a voice
assistant builder. The model covers:

- the Express back end: the `/api/auth` account routes, the ownership-scoped
  `/api/assistants` routes and the `/api/voice-chat` relay;
- the two Supabase edge functions: `voice-chat` and the public
  `assistant-widget`;
- the two browser API clients: the `supabase/client.ts` replacement client
  and `lib/api.ts`;
- the React auth context;
- the pure list and payload logic of the Phone Numbers and Voice Agent
  Studio pages;
- the recording state machine of the voice playground;
- the commit callback of `rebrand_repo.py`.

Every handler is a pure function from a request and a state to a reply and a
new state. Stores are sequences or maps, and JSON values are the datatype
`Js.Json`. Numbers are kept as their JavaScript text, so truthiness, `??` and
`String()` stay exact without floating point. `undefined` is `None`.

Everything the code gets from outside is an input to the model:

- the clock, random bytes, salts and database-assigned ids;
- the token string `jwt.sign` produces;
- gateway answers and database answers.

The libraries are reduced to the laws the code relies on:

- bcrypt is a symbolic hash of the 72 key bytes its key schedule reads,
  which only `Compare` can look into;
- JSON Web Tokens are a registry of issued tokens with their expiry;
- `JSON.stringify`/`parse` and UTF-8 encode/decode are pairs of functions
  assumed to round-trip.

Modules:

- `Js`: JavaScript values and operators.
- `Strings`: split/join/replace, trim and decimal numerals.
- `Crypto`: hex keys, bcrypt, JWT and Bearer headers.
- `Accounts`: the auth routes.
- `Assistants`: the assistants routes.
- `Chat`: message assembly and reply extraction, which the three chat
  handlers share.
- `VoiceChat`, `EdgeVoiceChat` and `Widget`: the three chat handlers.
- `Browser`: the two Web Storage areas.
- `ApiClient`: `client.ts`.
- `RestApi`: `lib/api.ts`.
- `AuthContext`: the React auth context.
- `PhoneNumbers`, `Studio` and `Playground`: the pages.
- `Rebrand`: the commit callback.

Every assistants route scopes its query to the caller (`userId:
req.userId`). Create, however, spreads the request body after the caller's
id, and update hands the body to `findOneAndUpdate`. So the body can choose
the owner: as a `userId` field, or on update through the `$set` operator.
The model follows the code (`OwnerPolicy.BodyMayOverride`) and proves the
gap. It also proves isolation for the rule the scoping implies, where the
owner is always the caller (`CallerForced`); see Findings.

## Model

| member | source | states |
|---|---|---|
| Assistants.SignedTokenAuthenticates | server/routes/assistants.js:9-22 | A header "Bearer " + token, for a token signed for some claims, authenticates as the claimed `userId` until the token expires. From the expiry second on it is 401 "Invalid or expired token". |
| Assistants.AuthenticatedOnlyByIssued | server/routes/assistants.js:9-22 | A request authenticates only with a Bearer header whose second piece is an issued, unexpired token, and the caller is the `userId` that token was issued for. |
| Assistants.Seconds | server/routes/assistants.js:16 | The clock `jwt.verify` checks expiry against is the whole number of seconds in the request's `Date.now()` milliseconds. |
| Assistants.SortByRecency | server/routes/assistants.js:27 | The result is ordered by `updatedAt`, newest first, and is a permutation of its input. |
| Assistants.OwnedRecords | server/routes/assistants.js:27 | A record is in the result exactly when it is in the store and its `userId` is the caller. |
| Assistants.FindOwned | server/routes/assistants.js:53-54 | An index found holds a record with that id owned by the caller. None found means no record matches both id and owner. |
| Assistants.List | server/routes/assistants.js:25-32 | The store is never changed. A refused authentication gives its 401 ("Unauthorized" or "Invalid or expired token") and a database error gives 500 with its message. Otherwise the listing holds exactly the caller's records, newest first, as a permutation of them. |
| Assistants.NewFields | server/routes/assistants.js:38-43 | A created record's fields are the body's fields plus `userId` and `name`. `name` is the body's name if truthy, else "New Assistant". The owner is the body's `userId` when the body carries one (as written), else the caller. |
| Assistants.MergedFields | server/routes/assistants.js:53-56 | As written, the fields of a `$set` object and the plain body fields are assigned over the old fields, a plain field winning over a `$set` entry of the same name. The keys of a `$unset` object are removed, and every other old field is kept. Under `CallerForced` only plain fields other than `userId` are merged. |
| Assistants.PlainBeatsSet | server/routes/assistants.js:55 | The body `{"name": "A", "$set": {"name": "B"}}` stores the name "A". |
| Assistants.Create | server/routes/assistants.js:35-48 | A refused authentication gives its 401 and a database error gives 500 with its message, both with the store untouched. On success exactly one record is appended, with the new id, `updatedAt` = `Date.now()` and `NewFields`. Ids stay unique. |
| Assistants.Update | server/routes/assistants.js:51-63 | A refused authentication gives its 401 and a database error gives 500 with its message, both with the store untouched. Otherwise only the caller's record with that id is replaced, by `MergedFields` stamped with `Date.now()` in milliseconds, and every other record is unchanged. No such record gives 404 "Assistant not found" and an unchanged store. Ids stay unique. |
| Assistants.Delete | server/routes/assistants.js:66-74 | A refused authentication gives its 401 and a database error gives 500 with its message, both with the store untouched. Otherwise exactly the caller's record with that id is removed and the answer is Deleted, or it is 404 "Assistant not found" and nothing is removed. |
| Assistants.Isolation | server/routes/assistants.js:25-74 | When the owner is forced to the caller, for every body: no list by another caller returns a record of `owner`, and no create, update or delete by another caller changes the set of records `owner` holds. As written this holds only for bodies that assign no `userId`, either as a field or through `$set`. |
| Assistants.OwnerSpoofing | server/routes/assistants.js:38-43 | As written, a caller authenticated as "bob" creates a record owned by "alice" by sending `userId: "alice"`. |
| Assistants.OperatorSpoofing | server/routes/assistants.js:53-56 | As written, "bob" updating his own record with `{"$set": {"userId": "alice"}}` turns it into a record "alice" holds, although the body has no `userId` key. |
| Accounts.Find | server/routes/auth.js:18 | `findOne({ email })` and `findById` for a string value: the first account whose email (or id) is exactly, case-sensitively, that value. None only when no account has it. |
| Accounts.FindAppended | server/routes/auth.js:26-32 | An account created with an email and id no other account has is the one later found for them. |
| Accounts.EnsureKeys | server/routes/auth.js:73-77 | After repair both keys are present. A key the account had is kept, and only a missing or empty key is filled with `pk_`/`sk_` plus the hex of 16 random bytes. Every other field is unchanged. |
| Accounts.EnsureKeysIdempotent | server/routes/auth.js:73-77 | Repairing a repaired account, with any randomness, changes nothing. |
| Accounts.UserView | server/routes/auth.js:36-45 | The user object has only id, email, displayName, publicKey and secretKey, with the account's values, and never the password. A field is present exactly when the account has it. |
| Accounts.UserViewHidesPassword | server/routes/auth.js:117-125 | The user object does not depend on the password hash. |
| Accounts.Signup | server/routes/auth.js:11-50 | A missing email or password is 400 "Email and password are required". An existing email is 400 "User already exists with this email", if and only if one exists. With both fields present, a store error is 500 with its message, or "Signup failed" when it has none. A session is returned exactly when the fields are present, the store works and the email is new. Success appends exactly one account and answers 201. That account has a bcrypt hash the password matches, displayName `displayName \|\| ""`, and `pk_`/`sk_` keys of 32 lowercase hex digits. The token issued verifies to its id and email. Failures change nothing, and ids and emails stay unique. |
| Accounts.Login | server/routes/auth.js:53-93 | A missing field is 400. A request is 401 "Invalid email or password" exactly when no account with that email matches the password, and a session is returned exactly when one does. With both fields present, a store error is 500 with its message, or "Login failed". Success repairs only that account's keys, answers 200 with its user object, and issues a token that verifies to its claims. The token string may already be issued for the same grant, as when the user signs in twice within a second. |
| Accounts.Me | server/routes/auth.js:96-129 | A missing or non-Bearer header is 401 "No token provided". A token that does not verify, or a store error behind a Bearer header, is 401 "Invalid or expired token". A verified token whose account is gone is 401 "User not found". A verified token whose account exists, with a working store, gets that account's user object after the key repair. The issued tokens are never changed. |
| Accounts.LoginFailuresIndistinguishable | server/routes/auth.js:60-68 | An unknown email and a wrong password get the identical reply, and neither changes the state. |
| Accounts.SameSecondRelogin | server/routes/auth.js:70 | A second login within the same second, which `jwt.sign` answers with the same string, succeeds with the same reply and the same issued tokens. |
| Accounts.SignupThenLogin | server/routes/auth.js:11-93 | Logging in with the signup's email and password succeeds and reports the same user object. |
| Accounts.SignupTokenWorksForAWeek | server/routes/auth.js:34 | The signup token opens `/me` with the new user until seven days after issue, and is refused from then on. |
| Crypto.Hex | server/routes/auth.js:24 | `toString('hex')` gives two lowercase hex digits per byte. |
| Crypto.UnhexHex | server/routes/auth.js:24-25 | Decoding the hex text of the bytes gives the bytes back. |
| Crypto.NewKey | server/routes/auth.js:24-25 | A key is the prefix followed by 32 lowercase hex digits that decode to the 16 random bytes. |
| Crypto.Utf8Char | server/routes/auth.js:23 | A character is one to four UTF-8 bytes, one exactly below 128 and then its code. No byte of a non-NUL character is zero. |
| Crypto.BcryptKey | server/routes/auth.js:23 | The key is 72 bytes. It starts with the password's UTF-8 bytes, and a password of fewer than 72 bytes is followed by a zero byte. |
| Crypto.Hash | server/routes/auth.js:23 | The hash has cost 10 and the given salt. A password matches it exactly when it feeds bcrypt's key schedule the same 72 bytes as the hashed one. |
| Crypto.LongPasswordsCollide | server/routes/auth.js:65 | Two passwords whose UTF-8 encodings agree on the first 72 bytes match each other's hash. |
| Crypto.TruncationExample | server/routes/auth.js:23-65 | A hash of 80 "a"s is matched by 72 "a"s followed by "b". |
| Crypto.ShortAsciiPasswordsDistinct | server/routes/auth.js:65 | Below 72 characters, an ASCII password without NUL matches only its own hash. |
| Crypto.Sign | server/routes/auth.js:34 | The new token verifies to its claims before now + 7 days and not from then on. Every other token verifies as before. |
| Crypto.BearerToken | server/routes/assistants.js:15 | The token is the text after "Bearer " up to the next space: the header's second space-separated piece. |
| Crypto.BearerTokenOf | server/routes/auth.js:103 | A header built as "Bearer " plus a token without spaces yields that token. |
| Strings.SecondPiece | server/routes/auth.js:103 | For a header starting with a space-free word and a space, `split(' ')[1]` is the text after that space up to the next one. |
| Strings.SplitJoin | rebrand_repo.py:18-20 | Joining the pieces of a split with the separator rebuilds the string, so `replace` loses no text. |
| Strings.SplitPiecesFree | rebrand_repo.py:18-20 | No piece of a split contains the pattern, so `replace` rewrites every occurrence. |
| Strings.ReplaceAbsent | rebrand_repo.py:18-20 | A string that does not contain the pattern is unchanged by `replace`. |
| Strings.Trim | src/pages/PhoneNumbers.tsx:79 | The trimmed string is the slice between the leading and trailing white space. |
| Strings.TrimEmptyIffBlank | src/pages/PhoneNumbers.tsx:73 | A string trims to "" exactly when all of it is white space. |
| Strings.TrimIdempotent | src/pages/PhoneNumbers.tsx:79-81 | Trimming a trimmed string changes nothing. |
| Strings.NatToString | src/integrations/supabase/client.ts:61 | The text of a status is a canonical decimal numeral that denotes it. |
| Browser.Lookup | src/integrations/supabase/client.ts:8 | A non-empty local value wins. Otherwise the session value, or null, is read. |
| Browser.Store | src/integrations/supabase/client.ts:11-19 | With remember the item goes to the local area and its session copy is removed. Without remember it goes to the session area and its local copy is removed. |
| Browser.Clear | src/integrations/supabase/client.ts:21-24 | The item is gone from both areas, and every other item is unchanged. |
| Browser.LookupAfterStore | src/integrations/supabase/client.ts:11-19 | A stored value reads back, except an empty value stored with remember, which reads as null. Exactly one area holds it. |
| Browser.LookupAfterClear | src/integrations/supabase/client.ts:21-24 | After clearing, the item reads as null. |
| Browser.OtherItemsUnaffected | src/integrations/supabase/client.ts:4-5 | Storing or clearing one key leaves every other key reading as before. |
| Browser.SetLocal | src/contexts/AuthContext.tsx:50 | The local item holds the value, the session area is untouched, and other local items are unchanged. |
| Browser.RemoveLocal | src/contexts/AuthContext.tsx:55 | The local item is gone, the session area is untouched, and other local items are unchanged. |
| ApiClient.TokenLaws | src/integrations/supabase/client.ts:7-24 | `getToken` after `setToken(t, remember)` is `t` (null for "" remembered), held in exactly one area. After `clearToken` it is null. The stored user is unaffected by either. |
| ApiClient.UserLaws | src/integrations/supabase/client.ts:26-45 | Given a JSON pair that round-trips: a stored user reads back as itself, an `undefined` user reads back as a parse error, and a cleared user as null. The token is unaffected. |
| ApiClient.BuildHeaders | src/integrations/supabase/client.ts:49-55 | `Authorization: Bearer <token>` is present exactly when a token is stored (or the caller gave one) and overrides the caller's. Content-Type is the caller's or JSON. Every other caller header is kept. |
| ApiClient.Settle | src/integrations/supabase/client.ts:57-71 | As written, every non-OK status ends in "Request failed with status N", whatever the body. An OK status gives the parsed body, or rethrows the parse error. |
| ApiClient.ServerErrorDiscarded | src/integrations/supabase/client.ts:57-68 | As written, a server's `{ error }` message on a failed request never reaches the caller, only the status does. |
| ApiClient.DuplicateSignupMessageLost | src/integrations/supabase/client.ts:61-67 | As written, a duplicate signup's 400 "User already exists with this email" surfaces as "Request failed with status 400". |
| ApiClient.SettleIntended | src/integrations/supabase/client.ts:61-68 | Intended handling: OK statuses are handled as written. A non-OK status throws the body's `error` text when it is truthy, and the generic status message otherwise. |
| ApiClient.ServerErrorSurfaced | src/integrations/supabase/client.ts:61 | Intended handling: the server's error text reaches the caller verbatim. |
| ApiClient.Fetch | src/integrations/supabase/client.ts:47-72 | The Bearer header carries the stored token whenever one is stored. Without a token the headers are exactly the JSON default overridden by the caller's. A non-OK status ends in "Request failed with status N", and an OK status in the parsed body or the parse error. |
| ApiClient.SignInThenFetch | src/integrations/supabase/client.ts:48-93 | After signing in with a reply carrying a non-empty token, every request sends `Bearer <that token>`, whichever tier remembered it. |
| ApiClient.FetchAfterSignOut | src/integrations/supabase/client.ts:48-99 | After sign-out a request carries no token: its `Authorization` header is present only when the caller set one, with the caller's value. |
| ApiClient.Remember | src/integrations/supabase/client.ts:76-94 | After a successful sign-up or sign-in, the reply's token and user are stored in the chosen tier. Any failure rejects and leaves storage untouched. |
| ApiClient.SignOut | src/integrations/supabase/client.ts:96-99 | After sign-out neither a token nor a user item remains. |
| ApiClient.GetSession | src/integrations/supabase/client.ts:101-113 | No token means no request and no session, with storage unchanged. With a token, the session is live exactly when the answer is OK with a non-null body. A live session carries the server's user and the stored token, and remembers the user. Any failure leaves storage with both token and user cleared and nothing else changed. |
| ApiClient.OnAuthStateChange | src/integrations/supabase/client.ts:118-127 | SIGNED_IN is reported, with that user and token, exactly when a token is stored and a truthy user parses. An unparseable user throws. |
| ApiClient.SignInThenSignedIn | src/integrations/supabase/client.ts:86-124 | A sign-in reply with a user object and a non-empty token makes the client report that user as signed in. |
| ApiClient.SignOutQuiet | src/integrations/supabase/client.ts:96-124 | After sign-out no SIGNED_IN event is reported. |
| ApiClient.SignOutThenGetSession | src/integrations/supabase/client.ts:96-103 | After sign-out, `getSession` makes no request and finds no session. |
| ApiClient.FailedSessionQuiet | src/integrations/supabase/client.ts:108-124 | After a failed session check, no SIGNED_IN event is reported. |
| ApiClient.LiveSessionSignedIn | src/integrations/supabase/client.ts:104-124 | After a session check that returns a truthy user, that user is reported as signed in with the stored token. |
| RestApi.Headers | src/lib/api.ts:13-17 | Caller headers override the defaults, Authorization and Content-Type included. Absent a caller Authorization header, Bearer is present exactly when a token is stored. |
| RestApi.Settle | src/lib/api.ts:24-34 | Non-OK: an ApiError with the status and the body's `error`, or "API request failed" (an unparseable body included). 204: an empty object. Any other OK status: the parsed body. |
| RestApi.ServerErrorCarried | src/lib/api.ts:24-27 | A server's error text reaches the caller with its status, and an unparseable error body gives the default message. |
| RestApi.Fetch | src/lib/api.ts:11-35 | Absent a caller Authorization header, one is sent exactly when `localStorage.token` is truthy. The result is the response mapping. |
| RestApi.TokensIndependent | src/lib/api.ts:12 | `token` and `voxai_token` are independent: storing or clearing either client's token or user never changes what the other reads. |
| AuthContext.RefreshUser | src/contexts/AuthContext.tsx:31-47 | Loading is false on every path. With no token there is no request and the user is unchanged. Otherwise a request carrying the token; success sets the returned user, and any failure removes the token and sets the user to null. |
| AuthContext.RefreshSendsToken | src/contexts/AuthContext.tsx:32-38 | A refresh request carries `Bearer <stored token>`. |
| AuthContext.FailedRefreshIsFinal | src/contexts/AuthContext.tsx:31-47 | After a failed refresh, the next refresh makes no request. |
| AuthContext.Login | src/contexts/AuthContext.tsx:49-52 | The token is stored and the user set, and loading is unchanged. The session area and every other local item are untouched. |
| AuthContext.Logout | src/contexts/AuthContext.tsx:54-57 | The token is removed and the user is null, and loading is unchanged. The session area and every other local item are untouched. |
| AuthContext.LoginThenRefresh | src/contexts/AuthContext.tsx:31-52 | After login, a refresh that gets back the same user keeps it and stops loading. |
| AuthContext.LogoutThenRefresh | src/contexts/AuthContext.tsx:31-57 | After logout, a refresh makes no request and the user stays null. |
| Chat.SpreadHistory | server/routes/voiceChat.js:16 | `...(history \|\| [])`: a falsy history spreads nothing, an array spreads its items, and a string spreads its characters. Any other value throws. |
| Chat.Assemble | server/routes/voiceChat.js:14-18 | The list is the system message, then the history in order, then the user message, with length equal to the history's plus 2. |
| Chat.Temperature | server/routes/voiceChat.js:38 | The temperature is 0.7 only when it is absent or null, so 0 is kept. |
| Chat.ReplyOf | server/routes/voiceChat.js:49 | The reply is never nullish, and reading it fails only on a null body. |
| Chat.ReplyOfCompletion | server/routes/voiceChat.js:49 | The reply is the first choice's content, even empty text. With no choice, or null content, it is the fallback. |
| Chat.ReplyOfWithoutChoices | server/routes/voiceChat.js:49 | An answer without `choices` gives the fallback. |
| VoiceChat.Handle | server/routes/voiceChat.js:6-56 | A falsy `userMessage` is 400 "userMessage is required" with no call. A history that cannot be spread is 500. For a truthy message and a history that spreads, a call is made exactly when a key is set, and without one the answer is the echo. The call carries `[system, ...history, user]`, the model, `temperature ?? 0.7` and 300 tokens. A non-OK gateway is 500 "AI API error: N - text". Failures are 400 or 500 only. |
| VoiceChat.SentMessages | server/routes/voiceChat.js:14-41 | The call keeps the history in order between system and user, and sends a temperature of 0 as 0. |
| VoiceChat.EchoWithoutKey | server/routes/voiceChat.js:21-27 | Without a key the reply is the echo of the message, whatever the gateway would answer. |
| EdgeVoiceChat.Handle | supabase/functions/voice-chat/index.ts:9-67 | OPTIONS gets the CORS preflight before anything else. An unparseable or null body is 500, and a falsy `userMessage` is 400. A missing key is 500 "LOVABLE_API_KEY not configured". A truthy message with a history that spreads and a key always makes the call, which carries `[system, ...history, user]`. A non-OK gateway is 500 "AI gateway error: N - text". The reply is the first choice or the fallback. |
| EdgeVoiceChat.SameMessagesAsExpress | supabase/functions/voice-chat/index.ts:24-47 | For an object body, the edge function calls exactly when the Express route does, with the same messages and temperature. Where Express echoes, the edge function fails with 500. |
| Widget.KeyPrecedence | supabase/functions/assistant-widget/index.ts:17 | While the `apiKey` query parameter is non-empty, the header key makes no difference to the answer. Without it, the request is answered as if only the header key had been sent. |
| Widget.Matching | supabase/functions/assistant-widget/index.ts:31-35 | A row is in the result exactly when it is in the table and carries the key. |
| Widget.LookUp | supabase/functions/assistant-widget/index.ts:31-42 | An assistant is found exactly when there is no database error and exactly one row carries the key (`maybeSingle`). |
| Widget.Config | supabase/functions/assistant-widget/index.ts:97-107 | The public configuration has exactly the seven listed keys, and never the system prompt, temperature or key. `firstMessage` is `tools.firstMessage` when truthy, else the greeting. |
| Widget.Converse | supabase/functions/assistant-widget/index.ts:45-94 | A falsy `userMessage` is 400. A missing gateway key is 500. With a truthy message and a key, a call is made exactly when the history spreads, and an unspreadable history is 500. The call carries `[stored prompt or default, ...history, user]` with the stored temperature. A gateway 429 is 429 "Rate limited, try again later", and any other non-OK is 500. A reply carries the assistant's id and name. |
| Widget.Handle | supabase/functions/assistant-widget/index.ts:10-115 | OPTIONS is answered before any key check. No key is 401 "Missing apiKey" and the table is not read. An unknown key is 404 "Invalid API key". POST converses and any other method returns the config. Only a POST makes a call. |
| Widget.UnknownKeyRefused | supabase/functions/assistant-widget/index.ts:37-42 | A key no row carries is 404 whatever else the request holds. |
| Widget.ConfigIndependentOfOtherRows | supabase/functions/assistant-widget/index.ts:97-107 | A GET's configuration depends only on the row the key selects, and omits the system prompt. |
| PhoneNumbers.AddNumber | src/pages/PhoneNumbers.tsx:72-90 | A number blank after trimming changes nothing. Otherwise exactly one entry is appended, with the trimmed number, the chosen provider, the trimmed label or else the number, no assistant and status active. The form is then cleared and closed. |
| PhoneNumbers.AddedEntryTrimmed | src/pages/PhoneNumbers.tsx:79-81 | An added entry's number and label are already trimmed, and its label is not empty. |
| PhoneNumbers.AddKeepsUnique | src/pages/PhoneNumbers.tsx:77-85 | A fresh id keeps ids unique. |
| PhoneNumbers.BlankNumberIgnored | src/pages/PhoneNumbers.tsx:73-76 | A number made only of white space adds nothing. |
| PhoneNumbers.RemoveNumber | src/pages/PhoneNumbers.tsx:92-95 | An entry remains exactly when it was there and has another id, and the list never grows. An absent id changes nothing. |
| PhoneNumbers.RemoveNumberAppend | src/pages/PhoneNumbers.tsx:93 | Removing from a concatenation removes from each part and keeps the parts in order. |
| PhoneNumbers.RemoveNumberOne | src/pages/PhoneNumbers.tsx:93 | A single entry is dropped exactly when it has the id. With `RemoveNumberAppend`, the kept entries stay in order, each as often as it occurs. |
| PhoneNumbers.RemoveNumberIdempotent | src/pages/PhoneNumbers.tsx:93 | Removing the same id twice is removing it once. |
| PhoneNumbers.RemoveKeepsUnique | src/pages/PhoneNumbers.tsx:93 | Removal keeps ids unique. |
| PhoneNumbers.SelectionValue | src/pages/PhoneNumbers.tsx:211 | The select's "none" becomes "", and any other value is passed on. |
| PhoneNumbers.AssistantRef | src/pages/PhoneNumbers.tsx:98 | `assistantId \|\| null` is null for "" and the id itself for any other id. |
| PhoneNumbers.AssignAssistant | src/pages/PhoneNumbers.tsx:97-100 | The length is kept. Each entry with that id gets the assistant (null for ""), and every other entry is unchanged. |
| PhoneNumbers.ChooseNone | src/pages/PhoneNumbers.tsx:211 | Choosing None unassigns exactly the matching entries. |
| Studio.DefaultDraft | src/pages/VoiceAgentStudio.tsx:33-45 | The default draft has exactly the editable fields: "New assistant", description "", the default prompt, "en", "friendly", 0.7, "elevenlabs", a null voice, speed 1 and tools `{ agentId: "" }`. |
| Studio.ActiveAssistant | src/pages/VoiceAgentStudio.tsx:58 | The active assistant exists exactly when some row has the active id, and it is the first such row. Otherwise it is null. |
| Studio.SyncDraft | src/pages/VoiceAgentStudio.tsx:99-105 | With an active assistant, the draft is replaced: it holds exactly the row's columns plus `tools`, every column with the row's value, and `tools` becomes `tools ?? { agentId: "" }`. Without one nothing changes. |
| Studio.Load | src/pages/VoiceAgentStudio.tsx:60-78 | A database error changes nothing. Otherwise the list is the rows (`data ?? []`), and the first row becomes active only when nothing is active. |
| Studio.LoadIdempotent | src/pages/VoiceAgentStudio.tsx:69-71 | Loading the same rows twice is loading them once. |
| Studio.CreatePayload | src/pages/VoiceAgentStudio.tsx:111-115 | The insert holds `user_id`, the default draft, and the name "Assistant " + (count + 1). |
| Studio.CreateAssistant | src/pages/VoiceAgentStudio.tsx:107-129 | Without a user nothing is sent and nothing changes. Otherwise the payload is sent, and a returned row is prepended and made active. A failure or a missing row changes nothing. |
| Studio.CreatedIsActive | src/pages/VoiceAgentStudio.tsx:120-121 | After a create, the active assistant is the created row, whatever ids the list held. |
| Studio.SaveFallbacks | src/pages/VoiceAgentStudio.tsx:137-148 | The fallbacks are "Untitled", null, "", "en", "neutral", 0.7, "elevenlabs", null, 1 and {}. |
| Studio.SavePayload | src/pages/VoiceAgentStudio.tsx:137-148 | Every editable field is the draft's value unless that value is missing or null, in which case it is the field's fallback. |
| Studio.SaveAssistant | src/pages/VoiceAgentStudio.tsx:131-149 | Without an active id nothing is sent. Otherwise the update for that id carries the save payload. |
| Studio.SaveUntouchedDraft | src/pages/VoiceAgentStudio.tsx:99-148 | Saving the draft synced from the active row writes back that row's own non-null values. |
| Playground.Start | src/components/voice/VoicePlayground.tsx:40-62 | Without an assistant, or with the microphone refused, nothing changes. Otherwise the chunks are emptied, a recording starts, and the status is listening. |
| Playground.DataAvailable | src/components/voice/VoicePlayground.tsx:52-54 | Only a non-empty chunk is kept. |
| Playground.Stop | src/components/voice/VoicePlayground.tsx:64-100 | With no active recorder, the status goes idle. A recording under 100 bytes goes idle with no message. Otherwise the status is thinking and one user message is appended. |
| Playground.ResponseText | src/components/voice/VoicePlayground.tsx:92 | The answer embeds the assistant's name, or "your assistant" when it has none. |
| Playground.Respond | src/components/voice/VoicePlayground.tsx:91-96 | The timer appends one assistant message and goes idle. |
| Playground.Cancel | src/components/voice/VoicePlayground.tsx:102-109 | Cancel always ends idle, stops an active recorder, and appends no message. |
| Playground.Transcript | src/components/voice/VoicePlayground.tsx:158 | The transcript is the last four messages, or all of them when there are fewer. |
| Playground.StepLaws | src/components/voice/VoicePlayground.tsx:40-109 | Every event appends at most one message, keeps the earlier ones, and never sets speaking. |
| Playground.Run | src/components/voice/VoicePlayground.tsx:40-109 | Over any sequence of events, the log only grows by appending and the status never becomes speaking. |
| Playground.RecordAndAnswer | src/components/voice/VoicePlayground.tsx:64-100 | A recording whose chunks, the final one included (even an empty one), total at least 100 bytes, followed by the timer, appends the user's message and then the assistant's, and ends idle. |
| Rebrand.Rename | rebrand_repo.py:6-8 | The identity becomes Antigravity exactly when the name is "Lovable" or "gpt-engineer-app[bot]". Any other identity is unchanged. |
| Rebrand.RenameIdempotent | rebrand_repo.py:6-13 | Renaming a renamed identity changes nothing. |
| Rebrand.Callback | rebrand_repo.py:4-23 | Author and committer are each renamed by the rule. A message that does not decode is kept byte for byte. Otherwise the message is the encoding of the three replacements applied in order. |
| Rebrand.Independent | rebrand_repo.py:4-23 | The author depends only on the author, the committer only on the committer, and the message only on the message. |
| Rebrand.UntouchedMessage | rebrand_repo.py:16-21 | A message that decodes and holds none of the three phrases is kept byte for byte. |
| Rebrand.UpdatePhraseRewritten | rebrand_repo.py:18 | "Lovable update" becomes "Antigravity update". |
| Rebrand.BrandingPhraseRewritten | rebrand_repo.py:18-19 | "Remove Lovable branding" passes the first replacement and becomes "Remove old branding". |

## Left out

- Network, database and process I/O are left out: Mongoose/MongoDB, the Supabase client, `fetch` to the gateways, `server/index.js`, and the git-filter-repo driver (`rebrand_repo.py:25-26`). Their answers are inputs to the model, and a database failure is a flag or an error text.
- bcrypt, `jsonwebtoken` and `crypto.randomBytes` are kept to their laws: a symbolic hash, a registry of issued tokens, and random bytes given as input. The JWT secret and the token encoding are not modelled.
- Crypto.Hash: the Blowfish digest is taken to separate different 72-byte keys. Collisions of the cipher itself are not modelled.
- Accounts.Signup: the body fields are taken to be strings or absent. A JSON object as `email` (an operator query such as `{"$gt": ""}` that `findOne` evaluates) and non-string passwords or display names are not modelled. In the source they can select an arbitrary account, fail the cast, or make bcrypt throw (500).
- Accounts.Login: the same restriction to string fields. An operator-query `email` makes `findOne` return the first account it matches, whatever its email, and bcrypt then checks the password against that account. A non-string password makes `bcrypt.compare` throw, which is 500.
- Assistants.MergedFields: of the update operators only `$set` and `$unset` are interpreted, and only with an object value. Any other operator key (`$inc`, `$rename`, `$push`, ...) is ignored. A MongoDB conflict between a key that is both assigned and unset is resolved by removing it, not by the source's 500. A dotted key such as `tools.agentId` is stored as a field name, not as a nested path.
- Assistants.Isolation: the as-written half is stated only for bodies whose operators are `$set` and `$unset`, the ones the model interprets; `$rename` of `userId`, for one, is not covered.
- Assistants.MergedFields: the body keys `_id` and `updatedAt` are kept out of a record's fields, on create and on update (in a `$set` or `$unset` too). In the source a body `_id` chooses the created record's id or fails the cast with 500, and on update an `_id` other than the record's own is an immutable-field error (500). The update's own `updatedAt: Date.now()` overrides a body's, as modelled. Whether create keeps a body `updatedAt` depends on the `VoiceAssistant` schema, which is not part of this model.
- Assistants.Create: the created record is stamped with the request's `Date.now()`. In the source the stamp comes from the `VoiceAssistant` schema, which is not part of this model.
- Assistants.NewFields: the `VoiceAssistant` schema is not part of this model, so body fields are stored as given, `$`-prefixed keys included. Mongoose's dropping of unknown paths and its casts are not modelled.
- `JSON.stringify`/`JSON.parse` and UTF-8 `decode`/`encode` are caller-supplied pairs. Their round-trip laws are stated as predicates, not proved.
- Floating-point numbers are not modelled. Numbers are kept as text.
- Studio.SavePayload: the `Number(...)` coercion of `temperature` and `voice_speed` is not modelled; the payload holds the value handed to `Number`.
- Assistants.SortByRecency: Mongo's order among records with equal `updatedAt` is unspecified. The model states only the order and the permutation, and picks one tie order.
- The `saveAssistant` reload at `src/pages/VoiceAgentStudio.tsx:154` is not folded into `Studio.SaveAssistant`. It is the separate `Studio.Load` applied to the database's answer.
- The session subscription and navigation of the Studio page (`src/pages/VoiceAgentStudio.tsx:80-97`) are not modelled, nor the loading flags. They are UI wiring.
- The assistants and voice-chat wrappers of `client.ts` (lines 131-168) are thin `apiFetch` calls with fixed paths. Only `apiFetch` itself (`ApiClient.Fetch`) is modelled.
- Toasts, rendering, routing, timers and the microphone are not modelled.
  - The timer's callback is the event `TimerFired`, which may arrive at any point.
  - Stopping the microphone tracks has no state in the model.
- Playground.Start: pressing start while already recording replaces the recorder. The old `MediaRecorder` keeps running in the browser, which the model does not track.
- Ids are compared with `===` as strings. A non-string id is not modelled.
- The text of exceptions the JavaScript engine raises itself (a `TypeError` or a `SyntaxError`) is the single value `Chat.Runtime`.
- The Express JSON body parser is taken to give an object to `/api/voice-chat`. An array body has none of the fields read and is covered by the empty object.
- The concurrency of React effects and of overlapping async requests is not modelled. Each operation runs to completion on the state it starts from.

## Findings

| source | as written | input that shows it | evidently intended | confidence | as-written member | corrected member |
|---|---|---|---|---|---|---|
| server/routes/assistants.js:38-43 | `{ userId: req.userId, ...req.body, ... }` spreads the body after the caller's id. A body carrying `userId` therefore names the owner. | A request with a valid token for "bob" and body `{"userId": "alice"}` creates a record that "alice" holds. | The owner of a created record is always the authenticated caller. | high; not executed | Assistants.OwnerSpoofing | Assistants.Isolation |
| server/routes/assistants.js:53-56 | The body is handed to `findOneAndUpdate` as the update document, so its `$set` operator assigns any field, `userId` included. | "bob" updates his own record with `{"$set": {"userId": "alice"}}`, and the record becomes one "alice" holds. | An update never changes a record's owner: operators and `userId` are stripped from the body. | high; not executed | Assistants.OperatorSpoofing | Assistants.Isolation |
| src/integrations/supabase/client.ts:61-67 | The `Error` thrown at line 61 for a non-OK status is caught at line 64. Line 67 replaces it with "Request failed with status N" whenever the status is not OK. | A 400 answer `{"error": "User already exists with this email"}` reaches the caller as "Request failed with status 400". | The generic message only when the body is not JSON (the comment at line 66); otherwise the server's `error` text. | high; not executed | ApiClient.DuplicateSignupMessageLost | ApiClient.ServerErrorSurfaced |

=== FILE: accounts.dfy ===
/** The `/api/auth` routes: signup, login and `/me` as transitions over the
    account collection and the set of issued tokens.

    Accounts are found by exact (case-sensitive) email or by id, first
    match in collection order. Randomness, the clock, the salt, the id the
    database assigns and the token string `jwt.sign` produces are supplied
    by an `Env`; a store failure is `Env.storeError`. */
module Accounts {

  import opened Js
  import opened Strings
  import opened Crypto

  datatype Account = Account(
    id: string,
    email: string,
    password: PasswordHash,
    displayName: Option<string>,
    publicKey: Option<string>,
    secretKey: Option<string>)

  type Users = seq<Account>

  datatype State = State(users: Users, issued: Issued)

  /** Ids and emails are unique across the collection. */
  predicate WellFormed(users: Users) {
    forall i, j | 0 <= i < j < |users| :: users[i].id != users[j].id && users[i].email != users[j].email
  }

  /** What one request draws from outside the handler. */
  datatype Env = Env(
    now: int,
    token: string,
    publicRandom: seq<byte>,
    secretRandom: seq<byte>,
    salt: string,
    newId: string,
    storeError: Option<string>)

  /** The environment a request may see: 16 random bytes per key. */
  predicate EnvFits(env: Env) {
    |env.publicRandom| == KeyRandomBytes && |env.secretRandom| == KeyRandomBytes
  }

  /** The token string offered for signing `claims` now. `jwt.sign` is
      deterministic, so a string already issued (the same user signing in
      twice within a second) stands for the same grant. */
  predicate TokenFits(env: Env, s: State, claims: Claims) {
    CanSign(s.issued, claims, env.now, env.token)
  }

  /** The body of a request: `{ email, password, displayName }`. */
  datatype Credentials = Credentials(email: Option<string>, password: Option<string>, displayName: Option<string>)

  datatype Reply =
    | Session(status: nat, user: map<string, Json>, token: string)
    | Profile(user: map<string, Json>)
    | Failure(status: nat, error: string)

  datatype Outcome = Outcome(reply: Reply, state: State)

  const MissingFields := "Email and password are required"
  const EmailTaken := "User already exists with this email"
  const BadCredentials := "Invalid email or password"
  const NoToken := "No token provided"
  const BadToken := "Invalid or expired token"
  const UnknownUser := "User not found"

  /** The keys of the user object every reply carries. */
  const UserKeys: set<string> := {"id", "email", "displayName", "publicKey", "secretKey"}

  // ---------------------------------------------------------------------
  // lookups

  /** The fields an account is looked up by. */
  datatype Field = Email | Id

  function KeyOf(a: Account, f: Field): string {
    match f
    case Email => a.email
    case Id => a.id
  }

  /** `findOne({ email })` and `findById(id)`: the first account whose field
      is exactly `value`. */
  function Find(users: Users, f: Field, value: string): (i: Option<nat>)
    ensures i.Some? ==> i.value < |users| && KeyOf(users[i.value], f) == value
                        && forall k | 0 <= k < i.value :: KeyOf(users[k], f) != value
    ensures i.None? ==> forall k | 0 <= k < |users| :: KeyOf(users[k], f) != value
  {
    if |users| == 0 then None
    else if KeyOf(users[0], f) == value then Some(0)
    else match Find(users[1..], f, value)
      case None => None
      case Some(k) => Some(k + 1)
  }

  // ---------------------------------------------------------------------
  // key migration and the user projection

  predicate HasKeys(a: Account) {
    TruthyStr(a.publicKey) && TruthyStr(a.secretKey)
  }

  /** Repair on read: give an account whichever of its `pk_`/`sk_` keys is
      missing or empty, and keep a key it already has. */
  function EnsureKeys(a: Account, publicRandom: seq<byte>, secretRandom: seq<byte>): (b: Account)
    requires |publicRandom| == KeyRandomBytes && |secretRandom| == KeyRandomBytes
    ensures HasKeys(b)
    ensures b.id == a.id && b.email == a.email && b.password == a.password && b.displayName == a.displayName
    ensures TruthyStr(a.publicKey) ==> b.publicKey == a.publicKey
    ensures TruthyStr(a.secretKey) ==> b.secretKey == a.secretKey
    ensures !TruthyStr(a.publicKey) ==> b.publicKey == Some(NewKey("pk_", publicRandom))
    ensures !TruthyStr(a.secretKey) ==> b.secretKey == Some(NewKey("sk_", secretRandom))
  {
    a.(publicKey := Some(OrStr(a.publicKey, NewKey("pk_", publicRandom))),
       secretKey := Some(OrStr(a.secretKey, NewKey("sk_", secretRandom))))
  }

  /** Repairing twice, whatever the second draw of randomness, is
      repairing once. */
  lemma EnsureKeysIdempotent(a: Account, p1: seq<byte>, s1: seq<byte>, p2: seq<byte>, s2: seq<byte>)
    requires |p1| == KeyRandomBytes && |s1| == KeyRandomBytes
    requires |p2| == KeyRandomBytes && |s2| == KeyRandomBytes
    ensures EnsureKeys(EnsureKeys(a, p1, s1), p2, s2) == EnsureKeys(a, p1, s1)
  {
  }

  /** The `user` object of a reply: the account without its password hash.
      A field the account lacks is left out, as `JSON.stringify` drops
      `undefined`. */
  function UserView(a: Account): (u: map<string, Json>)
    ensures "password" !in u && u.Keys <= UserKeys
    ensures HasKeys(a) && a.displayName.Some? ==> u.Keys == UserKeys
    ensures "id" in u && u["id"] == JStr(a.id) && "email" in u && u["email"] == JStr(a.email)
    ensures ("displayName" in u <==> a.displayName.Some?) && ("publicKey" in u <==> a.publicKey.Some?)
            && ("secretKey" in u <==> a.secretKey.Some?)
    ensures a.displayName.Some? ==> u["displayName"] == JStr(a.displayName.value)
    ensures a.publicKey.Some? ==> u["publicKey"] == JStr(a.publicKey.value)
    ensures a.secretKey.Some? ==> u["secretKey"] == JStr(a.secretKey.value)
  {
    var base := map["id" := JStr(a.id), "email" := JStr(a.email)];
    var withName := if a.displayName.Some? then base["displayName" := JStr(a.displayName.value)] else base;
    var withPk := if a.publicKey.Some? then withName["publicKey" := JStr(a.publicKey.value)] else withName;
    if a.secretKey.Some? then withPk["secretKey" := JStr(a.secretKey.value)] else withPk
  }

  /** What a client sees of an account does not depend on its password
      hash. */
  lemma UserViewHidesPassword(a: Account, h: PasswordHash)
    ensures UserView(a.(password := h)) == UserView(a)
  {
  }

  // ---------------------------------------------------------------------
  // handlers

  /** POST /signup */
  function Signup(s: State, body: Credentials, env: Env): (o: Outcome)
    requires EnvFits(env)
    requires TruthyStr(body.email) ==> TokenFits(env, s, Claims(env.newId, body.email.value))
    requires forall k | 0 <= k < |s.users| :: s.users[k].id != env.newId
    ensures !TruthyStr(body.email) || !TruthyStr(body.password) ==>
              o == Outcome(Failure(400, MissingFields), s)
    ensures TruthyStr(body.email) && TruthyStr(body.password) && env.storeError.Some? ==>
              o == Outcome(Failure(500, OrStr(env.storeError, "Signup failed")), s)
    ensures TruthyStr(body.email) && TruthyStr(body.password) && env.storeError.None? ==>
              (Find(s.users, Email, body.email.value).Some? <==> o == Outcome(Failure(400, EmailTaken), s))
    ensures o.reply.Session? <==>
              TruthyStr(body.email) && TruthyStr(body.password) && env.storeError.None?
              && Find(s.users, Email, body.email.value).None?
    ensures !o.reply.Session? ==> o.state == s
    ensures o.reply.Session? ==>
              |o.state.users| == |s.users| + 1 &&
              var a := o.state.users[|s.users|];
              && o.reply.status == 201
              && o.state.users == s.users + [a]
              && a.id == env.newId && a.email == body.email.value
              && Compare(body.password.value, a.password) && a.password.rounds == SaltRounds
              && a.displayName == Some(OrStr(body.displayName, ""))
              && a.publicKey == Some(NewKey("pk_", env.publicRandom))
              && a.secretKey == Some(NewKey("sk_", env.secretRandom))
              && o.reply.user == UserView(a) && o.reply.token == env.token
              && Verify(o.state.issued, env.token, env.now) == Some(Claims(env.newId, a.email))
    ensures WellFormed(s.users) ==> WellFormed(o.state.users)
  {
    if !TruthyStr(body.email) || !TruthyStr(body.password) then Outcome(Failure(400, MissingFields), s)
    else if env.storeError.Some? then Outcome(Failure(500, OrStr(env.storeError, "Signup failed")), s)
    else
      var email := body.email.value;
      if Find(s.users, Email, email).Some? then Outcome(Failure(400, EmailTaken), s)
      else
        var a := Account(env.newId, email, Hash(body.password.value, env.salt), Some(OrStr(body.displayName, "")),
                         Some(NewKey("pk_", env.publicRandom)), Some(NewKey("sk_", env.secretRandom)));
        var issued := Sign(s.issued, Claims(a.id, a.email), env.now, env.token);
        Outcome(Session(201, UserView(a), env.token), State(s.users + [a], issued))
  }

  /** The password check of login: an account with this email whose hash
      the password matches. */
  predicate CredentialsMatch(users: Users, email: string, password: string) {
    match Find(users, Email, email)
    case None => false
    case Some(i) => Compare(password, users[i].password)
  }

  /** The token offered to a login fits the account its email selects. */
  predicate LoginTokenFits(s: State, body: Credentials, env: Env) {
    TruthyStr(body.email) ==>
      match Find(s.users, Email, body.email.value)
      case None => true
      case Some(i) => TokenFits(env, s, Claims(s.users[i].id, s.users[i].email))
  }

  /** POST /login */
  function Login(s: State, body: Credentials, env: Env): (o: Outcome)
    requires EnvFits(env) && LoginTokenFits(s, body, env)
    ensures !TruthyStr(body.email) || !TruthyStr(body.password) ==>
              o == Outcome(Failure(400, MissingFields), s)
    ensures TruthyStr(body.email) && TruthyStr(body.password) && env.storeError.None? ==>
              && (!CredentialsMatch(s.users, body.email.value, body.password.value)
                  <==> o == Outcome(Failure(401, BadCredentials), s))
              && (CredentialsMatch(s.users, body.email.value, body.password.value) <==> o.reply.Session?)
    ensures TruthyStr(body.email) && TruthyStr(body.password) && env.storeError.Some? ==>
              o == Outcome(Failure(500, OrStr(env.storeError, "Login failed")), s)
    ensures !o.reply.Session? ==> o.state == s
    ensures o.reply.Session? ==>
              && TruthyStr(body.email) && TruthyStr(body.password) && env.storeError.None?
              && var i := Find(s.users, Email, body.email.value).value;
                 var a := EnsureKeys(s.users[i], env.publicRandom, env.secretRandom);
                 && o.reply.status == 200
                 && o.state.users == s.users[i := a]
                 && o.reply.user == UserView(a) && o.reply.token == env.token
                 && Verify(o.state.issued, env.token, env.now) == Some(Claims(a.id, a.email))
    ensures WellFormed(s.users) ==> WellFormed(o.state.users)
  {
    if !TruthyStr(body.email) || !TruthyStr(body.password) then Outcome(Failure(400, MissingFields), s)
    else if env.storeError.Some? then Outcome(Failure(500, OrStr(env.storeError, "Login failed")), s)
    else match Find(s.users, Email, body.email.value)
      case None => Outcome(Failure(401, BadCredentials), s)
      case Some(i) =>
        if !Compare(body.password.value, s.users[i].password) then Outcome(Failure(401, BadCredentials), s)
        else
          var issued := Sign(s.issued, Claims(s.users[i].id, s.users[i].email), env.now, env.token);
          var a := EnsureKeys(s.users[i], env.publicRandom, env.secretRandom);
          Outcome(Session(200, UserView(a), env.token), State(s.users[i := a], issued))
  }

  /** GET /me */
  function Me(s: State, header: Option<string>, env: Env): (o: Outcome)
    requires EnvFits(env)
    ensures !BearerShaped(header) ==> o == Outcome(Failure(401, NoToken), s)
    ensures BearerShaped(header) && Verify(s.issued, BearerToken(header.value), env.now).None? ==>
              o == Outcome(Failure(401, BadToken), s)
    ensures BearerShaped(header) && env.storeError.Some? ==> o == Outcome(Failure(401, BadToken), s)
    ensures o.state.issued == s.issued
    ensures !o.reply.Profile? ==> o.state == s
    ensures o.reply.Profile? ==>
              && BearerShaped(header) && env.storeError.None?
              && var claims := Verify(s.issued, BearerToken(header.value), env.now);
                 && claims.Some?
                 && var i := Find(s.users, Id, claims.value.userId);
                    && i.Some?
                    && var a := EnsureKeys(s.users[i.value], env.publicRandom, env.secretRandom);
                       o.reply.user == UserView(a) && o.state.users == s.users[i.value := a]
    ensures BearerShaped(header) && env.storeError.None? ==>
              var claims := Verify(s.issued, BearerToken(header.value), env.now);
              && (claims.Some? && Find(s.users, Id, claims.value.userId).None? ==>
                    o == Outcome(Failure(401, UnknownUser), s))
              && (claims.Some? && Find(s.users, Id, claims.value.userId).Some? ==> o.reply.Profile?)
    ensures WellFormed(s.users) ==> WellFormed(o.state.users)
  {
    if !BearerShaped(header) then Outcome(Failure(401, NoToken), s)
    else match Verify(s.issued, BearerToken(header.value), env.now)
      case None => Outcome(Failure(401, BadToken), s)
      case Some(claims) =>
        if env.storeError.Some? then Outcome(Failure(401, BadToken), s)
        else match Find(s.users, Id, claims.userId)
          case None => Outcome(Failure(401, UnknownUser), s)
          case Some(i) =>
            var a := EnsureKeys(s.users[i], env.publicRandom, env.secretRandom);
            Outcome(Profile(UserView(a)), State(s.users[i := a], s.issued))
  }

  // ---------------------------------------------------------------------
  // properties across requests

  /** An unknown email and a wrong password for a known one are answered
      identically, and neither changes anything. */
  lemma LoginFailuresIndistinguishable(s: State, unknown: Credentials, wrong: Credentials, env: Env)
    requires EnvFits(env) && env.storeError.None?
    requires LoginTokenFits(s, unknown, env) && LoginTokenFits(s, wrong, env)
    requires TruthyStr(unknown.email) && TruthyStr(unknown.password)
    requires TruthyStr(wrong.email) && TruthyStr(wrong.password)
    requires Find(s.users, Email, unknown.email.value).None?
    requires Find(s.users, Email, wrong.email.value).Some?
    requires !Compare(wrong.password.value, s.users[Find(s.users, Email, wrong.email.value).value].password)
    ensures Login(s, unknown, env) == Login(s, wrong, env) == Outcome(Failure(401, BadCredentials), s)
  {
  }

  /** Logging in twice within one second is answered twice: the second
      `jwt.sign` yields the same string for the same grant, and the same
      user object comes back. */
  lemma SameSecondRelogin(s: State, body: Credentials, env: Env)
    requires EnvFits(env) && LoginTokenFits(s, body, env)
    requires Login(s, body, env).reply.Session?
    ensures var o1 := Login(s, body, env);
            && LoginTokenFits(o1.state, body, env)
            && var o2 := Login(o1.state, body, env);
               o2.reply == o1.reply && o2.state.issued == o1.state.issued
  {
    var i := Find(s.users, Email, body.email.value).value;
    var o1 := Login(s, body, env);
    var a := EnsureKeys(s.users[i], env.publicRandom, env.secretRandom);
    assert o1.state.users == s.users[i := a];
    FindReplaced(s.users, i, a, Email, body.email.value);
    assert EnsureKeys(a, env.publicRandom, env.secretRandom) == a;
  }

  /** Replacing the first match by an account with the same key keeps it
      the first match. */
  lemma FindReplaced(users: Users, i: nat, a: Account, f: Field, value: string)
    requires Find(users, f, value) == Some(i) && KeyOf(a, f) == value
    ensures Find(users[i := a], f, value) == Some(i)
  {
    var r := Find(users[i := a], f, value);
    assert forall k | 0 <= k < i :: users[i := a][k] == users[k];
    assert users[i := a][i] == a;
  }

  /** The password an account was created with logs it in, and the login
      reports the same user. */
  lemma SignupThenLogin(s: State, body: Credentials, env1: Env, env2: Env)
    requires EnvFits(env1) && EnvFits(env2) && env2.storeError.None?
    requires TruthyStr(body.email) ==> TokenFits(env1, s, Claims(env1.newId, body.email.value))
    requires forall k | 0 <= k < |s.users| :: s.users[k].id != env1.newId
    requires Signup(s, body, env1).reply.Session?
    requires LoginTokenFits(Signup(s, body, env1).state, Credentials(body.email, body.password, None), env2)
    ensures var s1 := Signup(s, body, env1);
            var o := Login(s1.state, Credentials(body.email, body.password, None), env2);
            o.reply.Session? && o.reply.user == s1.reply.user
  {
    var s1 := Signup(s, body, env1);
    var a := s1.state.users[|s.users|];
    assert s1.state.users == s.users + [a];
    FindAppended(s.users, a, Email, body.email.value);
    assert EnsureKeys(a, env2.publicRandom, env2.secretRandom) == a;
  }

  /** The token a signup hands out identifies its account at `/me` for
      seven days, and not after. */
  lemma SignupTokenWorksForAWeek(s: State, body: Credentials, env: Env, menv: Env)
    requires EnvFits(env) && EnvFits(menv)
    requires TruthyStr(body.email) ==> TokenFits(env, s, Claims(env.newId, body.email.value))
    requires forall k | 0 <= k < |s.users| :: s.users[k].id != env.newId
    requires Signup(s, body, env).reply.Session?
    requires ' ' !in env.token
    requires menv.storeError.None?
    ensures var s1 := Signup(s, body, env);
            var o := Me(s1.state, Some("Bearer " + env.token), menv);
            && (menv.now < env.now + TokenLifetime ==> o.reply == Profile(s1.reply.user))
            && (menv.now >= env.now + TokenLifetime ==> o.reply == Failure(401, BadToken))
  {
    var s1 := Signup(s, body, env);
    BearerTokenOf(env.token);
    var a := s1.state.users[|s.users|];
    assert s1.state.users == s.users + [a];
    FindAppended(s.users, a, Id, env.newId);
    assert EnsureKeys(a, menv.publicRandom, menv.secretRandom) == a;
  }

  /** An account appended with a value no earlier account has is the one
      found for it. */
  lemma FindAppended(users: Users, a: Account, f: Field, value: string)
    requires forall k | 0 <= k < |users| :: KeyOf(users[k], f) != value
    requires KeyOf(a, f) == value
    ensures Find(users + [a], f, value) == Some(|users|)
  {
    var i := Find(users + [a], f, value);
    assert forall k | 0 <= k < |users| :: (users + [a])[k] == users[k];
    assert KeyOf((users + [a])[|users|], f) == value;
  }
}

=== FILE: assistants.dfy ===
/** The `/api/assistants` routes: Bearer authentication followed by list,
    create, update and delete over a collection of assistant documents,
    each carrying its owner in the field `userId`.

    The collection is a sequence (its natural order); a document is its id,
    its fields and its `updatedAt` stamp, in milliseconds as `Date.now()`
    gives it. The keys `_id` and `updatedAt`
    of a request body are kept out of the fields (the model stores them
    apart). */
module Assistants {

  import opened Js
  import opened Strings
  import opened Crypto

  datatype Record = Record(id: string, fields: map<string, Json>, updatedAt: int)

  type Store = seq<Record>

  /** Body keys the model keeps outside a record's fields. */
  const Reserved: set<string> := {"_id", "updatedAt"}

  const DefaultName := "New Assistant"

  /** The record's `userId` field names `caller`. */
  predicate OwnedBy(r: Record, caller: string) {
    "userId" in r.fields && r.fields["userId"] == JStr(caller)
  }

  predicate UniqueIds(store: Store) {
    forall i, j | 0 <= i < j < |store| :: store[i].id != store[j].id
  }

  predicate IdInStore(store: Store, id: string) {
    exists i | 0 <= i < |store| :: store[i].id == id
  }

  datatype Reply =
    | Listed(records: seq<Record>)
    | Created(record: Record)
    | Updated(record: Record)
    | Deleted
    | Failure(status: nat, error: string)
  {
    function Status(): nat {
      match this
      case Created(_) => 201
      case Failure(s, _) => s
      case _ => 200
    }
  }

  datatype Outcome = Outcome(reply: Reply, store: Store)

  /** The clock `jwt.verify` checks expiry against:
      `Math.floor(Date.now() / 1000)`. */
  function Seconds(nowMs: int): (s: int)
    ensures s * 1000 <= nowMs < s * 1000 + 1000
  {
    nowMs / 1000
  }

  // ---------------------------------------------------------------------
  // authentication

  datatype Auth = Caller(id: string) | Rejected(reply: Reply)

  /** `authenticate`: a missing or non-Bearer header is "Unauthorized", a
      token that fails verification is "Invalid or expired token", and
      otherwise the caller is the token's `userId`. */
  function Authenticate(header: Option<string>, issued: Issued, now: int): (a: Auth)
    ensures !BearerShaped(header) ==> a == Rejected(Failure(401, "Unauthorized"))
    ensures BearerShaped(header) ==>
              match Verify(issued, BearerToken(header.value), now)
              case None => a == Rejected(Failure(401, "Invalid or expired token"))
              case Some(claims) => a == Caller(claims.userId)
  {
    if !BearerShaped(header) then Rejected(Failure(401, "Unauthorized"))
    else match Verify(issued, BearerToken(header.value), now)
      case None => Rejected(Failure(401, "Invalid or expired token"))
      case Some(claims) => Caller(claims.userId)
  }

  /** A Bearer header carrying a token signed for `claims` authenticates
      as the claimed user until the token expires, and is refused as
      invalid from then on. */
  lemma SignedTokenAuthenticates(issued: Issued, claims: Claims, signedAt: int, token: string, now: int)
    requires ' ' !in token && CanSign(issued, claims, signedAt, token)
    ensures var r := Sign(issued, claims, signedAt, token);
            && (now < signedAt + TokenLifetime ==> Authenticate(Some("Bearer " + token), r, now) == Caller(claims.userId))
            && (now >= signedAt + TokenLifetime ==>
                  Authenticate(Some("Bearer " + token), r, now) == Rejected(Failure(401, "Invalid or expired token")))
  {
    BearerTokenOf(token);
  }

  /** Only an issued, unexpired token authenticates, and as the user it
      was issued for. */
  lemma AuthenticatedOnlyByIssued(header: Option<string>, issued: Issued, now: int)
    requires Authenticate(header, issued, now).Caller?
    ensures BearerShaped(header)
    ensures var t := BearerToken(header.value);
            && t in issued && now < issued[t].expiresAt
            && issued[t].claims.userId == Authenticate(header, issued, now).id
  {
  }

  // ---------------------------------------------------------------------
  // ordering by recency

  predicate SortedByRecency(rs: seq<Record>) {
    forall i, j | 0 <= i < j < |rs| :: rs[i].updatedAt >= rs[j].updatedAt
  }

  function Insert(r: Record, sorted: seq<Record>): (out: seq<Record>)
    requires SortedByRecency(sorted)
    ensures SortedByRecency(out)
    ensures multiset(out) == multiset(sorted) + multiset{r}
    ensures |out| == |sorted| + 1
    ensures out[0] == r || (|sorted| > 0 && out[0] == sorted[0])
  {
    if |sorted| == 0 then [r]
    else if r.updatedAt >= sorted[0].updatedAt then [r] + sorted
    else
      var rest := Insert(r, sorted[1..]);
      assert sorted == [sorted[0]] + sorted[1..];
      assert rest[0].updatedAt <= sorted[0].updatedAt;
      var out := [sorted[0]] + rest;
      assert forall j | 1 <= j < |out| :: out[j] == rest[j - 1];
      assert forall j | 1 <= j < |out| :: out[0].updatedAt >= out[j].updatedAt;
      out
  }

  /** `.sort({ updatedAt: -1 })`: most recently updated first. */
  function SortByRecency(rs: seq<Record>): (out: seq<Record>)
    ensures SortedByRecency(out)
    ensures multiset(out) == multiset(rs)
  {
    if |rs| == 0 then []
    else
      assert rs == [rs[0]] + rs[1..];
      Insert(rs[0], SortByRecency(rs[1..]))
  }

  /** `find({ userId })`: the caller's records in store order. */
  function OwnedRecords(store: Store, caller: string): (out: seq<Record>)
    ensures forall r :: r in out <==> r in store && OwnedBy(r, caller)
    ensures |out| <= |store|
  {
    if |store| == 0 then []
    else
      var rest := OwnedRecords(store[1..], caller);
      assert forall r :: r in store <==> r == store[0] || r in store[1..];
      if OwnedBy(store[0], caller) then [store[0]] + rest else rest
  }

  /** The first record with this id that the caller owns. */
  function FindOwned(store: Store, id: string, caller: string): (i: Option<nat>)
    ensures i.Some? ==> i.value < |store| && store[i.value].id == id && OwnedBy(store[i.value], caller)
    ensures i.None? ==> forall r | r in store :: !(r.id == id && OwnedBy(r, caller))
  {
    if |store| == 0 then None
    else if store[0].id == id && OwnedBy(store[0], caller) then Some(0)
    else match FindOwned(store[1..], id, caller)
      case None => None
      case Some(k) => Some(k + 1)
  }

  function RemoveAt(store: Store, i: nat): (out: Store)
    requires i < |store|
    ensures |out| == |store| - 1
    ensures forall k | 0 <= k < i :: out[k] == store[k]
    ensures forall k | i <= k < |out| :: out[k] == store[k + 1]
  {
    store[..i] + store[i + 1..]
  }

  // ---------------------------------------------------------------------
  // handlers

  /** GET /: the caller's records, most recently updated first. */
  function List(store: Store, header: Option<string>, issued: Issued, nowMs: int, dbError: Option<string>): (o: Outcome)
    ensures o.store == store
    ensures !BearerShaped(header) ==> o.reply == Failure(401, "Unauthorized")
    ensures Authenticate(header, issued, Seconds(nowMs)).Rejected? ==>
              o == Outcome(Authenticate(header, issued, Seconds(nowMs)).reply, store)
    ensures Authenticate(header, issued, Seconds(nowMs)).Caller? && dbError.Some? ==>
              o == Outcome(Failure(500, dbError.value), store)
    ensures o.reply.Listed? <==> Authenticate(header, issued, Seconds(nowMs)).Caller? && dbError.None?
    ensures o.reply.Listed? ==>
              var caller := Authenticate(header, issued, Seconds(nowMs)).id;
              && SortedByRecency(o.reply.records)
              && (forall r :: r in o.reply.records <==> r in store && OwnedBy(r, caller))
              && multiset(o.reply.records) == multiset(OwnedRecords(store, caller))
  {
    match Authenticate(header, issued, Seconds(nowMs))
    case Rejected(reply) => Outcome(reply, store)
    case Caller(caller) =>
      if dbError.Some? then Outcome(Failure(500, dbError.value), store)
      else
        var rs := SortByRecency(OwnedRecords(store, caller));
        assert forall r :: r in rs <==> r in multiset(rs);
        Outcome(Listed(rs), store)
  }

  /** Who may set a record's owner. `BodyMayOverride` is the code as
      written: the body is spread after `userId` on create and merged
      wholesale on update, so a body carrying `userId` names the owner.
      `CallerForced` is the intended rule: the owner is always the caller. */
  datatype OwnerPolicy = BodyMayOverride | CallerForced

  /** The fields of a created record. As written:
      `{ userId: caller, ...body, name: body.name || 'New Assistant' }`. */
  function NewFields(policy: OwnerPolicy, caller: string, body: map<string, Json>): (f: map<string, Json>)
    ensures f.Keys == (body.Keys - Reserved) + {"userId", "name"}
    ensures f["userId"] == if policy == BodyMayOverride && "userId" in body then body["userId"] else JStr(caller)
    ensures f["name"] == Or(Get(body, "name"), JStr(DefaultName))
    ensures forall k | k in body && k !in Reserved && k != "name" && k != "userId" :: f[k] == body[k]
  {
    var base := map["userId" := JStr(caller)] + (body - Reserved);
    assert "userId" !in Reserved;
    assert "userId" in body ==> base["userId"] == body["userId"];
    assert "userId" !in body ==> base["userId"] == JStr(caller);
    var owned := if policy == CallerForced then base["userId" := JStr(caller)] else base;
    var f := owned["name" := Or(Get(body, "name"), JStr(DefaultName))];
    assert "userId"[0] != "name"[0];
    assert f["userId"] == owned["userId"];
    assert policy == CallerForced ==> owned["userId"] == JStr(caller);
    assert policy == BodyMayOverride ==> owned["userId"] == base["userId"];
    f
  }

  /** Whether a top-level body key is an update operator: `findOneAndUpdate`
      reads a key starting with `$` (`$set`, `$unset`, ...) as one rather
      than as a field. */
  predicate IsOperator(k: string) {
    |k| > 0 && k[0] == '$'
  }

  /** The plain fields of a body: every key that is neither an operator nor
      reserved. */
  function PlainFields(body: map<string, Json>): (p: map<string, Json>)
    ensures forall k :: k in p <==> k in body && !IsOperator(k) && k !in Reserved
    ensures forall k | k in p :: p[k] == body[k]
  {
    map k | k in body && !IsOperator(k) && k !in Reserved :: body[k]
  }

  /** The fields a body's `$set` object assigns. */
  function SetFields(body: map<string, Json>): map<string, Json> {
    if "$set" in body then FieldsOf(body["$set"]) - Reserved else map[]
  }

  /** The fields a body's `$unset` object removes. */
  function UnsetKeys(body: map<string, Json>): set<string> {
    if "$unset" in body then FieldsOf(body["$unset"]).Keys - Reserved else {}
  }

  /** The fields after an update. As written, Mongoose folds the body's
      plain fields into its `$set`, a plain field winning over a `$set`
      entry of the same name; the result is assigned over the old fields
      and the keys of its `$unset` are removed. Under `CallerForced` operators are
      stripped and `userId` is never written, so only plain fields other
      than `userId` are merged. */
  function MergedFields(policy: OwnerPolicy, prior: map<string, Json>, body: map<string, Json>): (f: map<string, Json>)
    ensures policy == BodyMayOverride ==>
              && f.Keys == (prior.Keys + SetFields(body).Keys + PlainFields(body).Keys) - UnsetKeys(body)
              && (forall k | k in body && !IsOperator(k) && k !in Reserved && k !in UnsetKeys(body) :: f[k] == body[k])
              && (forall k | k in SetFields(body) && k !in PlainFields(body) && k !in UnsetKeys(body) ::
                    f[k] == SetFields(body)[k])
              && (forall k | k in prior && k !in PlainFields(body) && k !in SetFields(body) && k !in UnsetKeys(body) ::
                    f[k] == prior[k])
    ensures policy == CallerForced ==>
              && f.Keys == prior.Keys + (PlainFields(body).Keys - {"userId"})
              && (forall k | k in body && !IsOperator(k) && k !in Reserved && k != "userId" :: f[k] == body[k])
              && (forall k | k in prior && (k !in PlainFields(body) || k == "userId") :: f[k] == prior[k])
  {
    if policy == CallerForced then prior + (PlainFields(body) - {"userId"})
    else (prior + SetFields(body) + PlainFields(body)) - UnsetKeys(body)
  }

  /** POST /: append a record owned by the caller, unless the body names
      an owner of its own. `newId` is the id the database assigns. */
  function Create(policy: OwnerPolicy, store: Store, header: Option<string>, body: map<string, Json>, newId: string,
                  nowMs: int, issued: Issued, dbError: Option<string>): (o: Outcome)
    requires !IdInStore(store, newId)
    ensures !BearerShaped(header) ==> o == Outcome(Failure(401, "Unauthorized"), store)
    ensures Authenticate(header, issued, Seconds(nowMs)).Rejected? ==>
              o == Outcome(Authenticate(header, issued, Seconds(nowMs)).reply, store)
    ensures Authenticate(header, issued, Seconds(nowMs)).Caller? && dbError.Some? ==>
              o == Outcome(Failure(500, dbError.value), store)
    ensures o.reply.Created? <==> Authenticate(header, issued, Seconds(nowMs)).Caller? && dbError.None?
    ensures !o.reply.Created? ==> o.store == store
    ensures o.reply.Created? ==>
              && o.store == store + [o.reply.record]
              && o.reply.record.id == newId && o.reply.record.updatedAt == nowMs
              && o.reply.record.fields == NewFields(policy, Authenticate(header, issued, Seconds(nowMs)).id, body)
    ensures UniqueIds(store) ==> UniqueIds(o.store)
  {
    match Authenticate(header, issued, Seconds(nowMs))
    case Rejected(reply) => Outcome(reply, store)
    case Caller(caller) =>
      if dbError.Some? then Outcome(Failure(500, dbError.value), store)
      else
        var r := Record(newId, NewFields(policy, caller, body), nowMs);
        Outcome(Created(r), store + [r])
  }

  /** PUT /:id: merge the body over the caller's record with this id and
      stamp it with `nowMs`; every other record stays as it was. */
  function Update(policy: OwnerPolicy, store: Store, header: Option<string>, id: string, body: map<string, Json>,
                  nowMs: int, issued: Issued, dbError: Option<string>): (o: Outcome)
    ensures !BearerShaped(header) ==> o == Outcome(Failure(401, "Unauthorized"), store)
    ensures Authenticate(header, issued, Seconds(nowMs)).Rejected? ==>
              o == Outcome(Authenticate(header, issued, Seconds(nowMs)).reply, store)
    ensures Authenticate(header, issued, Seconds(nowMs)).Caller? && dbError.Some? ==>
              o == Outcome(Failure(500, dbError.value), store)
    ensures !o.reply.Updated? ==> o.store == store
    ensures Authenticate(header, issued, Seconds(nowMs)).Caller? && dbError.None? ==>
              var caller := Authenticate(header, issued, Seconds(nowMs)).id;
              match FindOwned(store, id, caller)
              case None => o == Outcome(Failure(404, "Assistant not found"), store)
              case Some(i) =>
                && o.reply.Updated?
                && |o.store| == |store|
                && o.store[i] == o.reply.record
                && o.reply.record == Record(id, MergedFields(policy, store[i].fields, body), nowMs)
                && forall k | 0 <= k < |store| && k != i :: o.store[k] == store[k]
    ensures UniqueIds(store) ==> UniqueIds(o.store)
  {
    match Authenticate(header, issued, Seconds(nowMs))
    case Rejected(reply) => Outcome(reply, store)
    case Caller(caller) =>
      if dbError.Some? then Outcome(Failure(500, dbError.value), store)
      else match FindOwned(store, id, caller)
        case None => Outcome(Failure(404, "Assistant not found"), store)
        case Some(i) =>
          var r := Record(id, MergedFields(policy, store[i].fields, body), nowMs);
          Outcome(Updated(r), store[i := r])
  }

  /** DELETE /:id: remove the caller's record with this id. */
  function Delete(store: Store, header: Option<string>, id: string, nowMs: int,
                  issued: Issued, dbError: Option<string>): (o: Outcome)
    ensures !BearerShaped(header) ==> o == Outcome(Failure(401, "Unauthorized"), store)
    ensures Authenticate(header, issued, Seconds(nowMs)).Rejected? ==>
              o == Outcome(Authenticate(header, issued, Seconds(nowMs)).reply, store)
    ensures Authenticate(header, issued, Seconds(nowMs)).Caller? && dbError.Some? ==>
              o == Outcome(Failure(500, dbError.value), store)
    ensures !o.reply.Deleted? ==> o.store == store
    ensures Authenticate(header, issued, Seconds(nowMs)).Caller? && dbError.None? ==>
              var caller := Authenticate(header, issued, Seconds(nowMs)).id;
              match FindOwned(store, id, caller)
              case None => o == Outcome(Failure(404, "Assistant not found"), store)
              case Some(i) => o.reply == Deleted && o.store == RemoveAt(store, i)
    ensures UniqueIds(store) ==> UniqueIds(o.store)
  {
    match Authenticate(header, issued, Seconds(nowMs))
    case Rejected(reply) => Outcome(reply, store)
    case Caller(caller) =>
      if dbError.Some? then Outcome(Failure(500, dbError.value), store)
      else match FindOwned(store, id, caller)
        case None => Outcome(Failure(404, "Assistant not found"), store)
        case Some(i) => Outcome(Deleted, RemoveAt(store, i))
  }

  // ---------------------------------------------------------------------
  // isolation between owners

  /** The records `owner` holds. */
  function Holdings(store: Store, owner: string): set<Record> {
    set r | r in store && OwnedBy(r, owner)
  }

  /** The operators a body uses are at most `$set` and `$unset`, the two
      this model interprets. */
  predicate OnlySetOrUnset(body: map<string, Json>) {
    forall k | k in body && IsOperator(k) :: k == "$set" || k == "$unset"
  }

  /** No request by anyone other than `owner` returns, changes or removes a
      record `owner` holds, or gives `owner` a new one, provided the owner
      is forced to the caller, or the body assigns no `userId` (neither as
      a field nor through `$set`). */
  lemma Isolation(policy: OwnerPolicy, store: Store, header: Option<string>, issued: Issued, nowMs: int,
                  dbError: Option<string>, id: string, body: map<string, Json>, newId: string, owner: string)
    requires !IdInStore(store, newId)
    requires Authenticate(header, issued, Seconds(nowMs)) != Caller(owner)
    requires policy == CallerForced || ("userId" !in body && "userId" !in SetFields(body) && OnlySetOrUnset(body))
    ensures var o := List(store, header, issued, nowMs, dbError);
            o.reply.Listed? ==> forall r | r in o.reply.records :: !OwnedBy(r, owner)
    ensures Holdings(Create(policy, store, header, body, newId, nowMs, issued, dbError).store, owner) == Holdings(store, owner)
    ensures Holdings(Update(policy, store, header, id, body, nowMs, issued, dbError).store, owner) == Holdings(store, owner)
    ensures Holdings(Delete(store, header, id, nowMs, issued, dbError).store, owner) == Holdings(store, owner)
  {
    var auth := Authenticate(header, issued, Seconds(nowMs));
    if auth.Caller? && dbError.None? {
      var caller := auth.id;
      assert JStr(caller) != JStr(owner);
      var c := Create(policy, store, header, body, newId, nowMs, issued, dbError);
      assert !OwnedBy(c.reply.record, owner);
      assert forall r :: r in c.store <==> r in store || r == c.reply.record;
      match FindOwned(store, id, caller)
      case None =>
      case Some(i) =>
        var u := Update(policy, store, header, id, body, nowMs, issued, dbError);
        assert store[i].fields["userId"] == JStr(caller);
        assert "userId" in u.store[i].fields ==> u.store[i].fields["userId"] == JStr(caller);
        HoldingsAfterReplace(store, u.store, i, owner);
        var d := Delete(store, header, id, nowMs, issued, dbError);
        HoldingsAfterRemove(store, i, owner);
    }
  }

  lemma HoldingsAfterReplace(store: Store, store': Store, i: nat, owner: string)
    requires i < |store| == |store'|
    requires forall k | 0 <= k < |store| && k != i :: store'[k] == store[k]
    requires !OwnedBy(store[i], owner) && !OwnedBy(store'[i], owner)
    ensures Holdings(store', owner) == Holdings(store, owner)
  {
    forall r | r in store' && OwnedBy(r, owner) ensures r in store {
      var k :| 0 <= k < |store'| && store'[k] == r;
      assert store[k] == r;
    }
    forall r | r in store && OwnedBy(r, owner) ensures r in store' {
      var k :| 0 <= k < |store| && store[k] == r;
      assert store'[k] == r;
    }
  }

  lemma HoldingsAfterRemove(store: Store, i: nat, owner: string)
    requires i < |store| && !OwnedBy(store[i], owner)
    ensures Holdings(RemoveAt(store, i), owner) == Holdings(store, owner)
  {
    var out := RemoveAt(store, i);
    forall r | r in out ensures r in store {
      var k :| 0 <= k < |out| && out[k] == r;
      if k < i { assert store[k] == r; } else { assert store[k + 1] == r; }
    }
    forall r | r in store && OwnedBy(r, owner) ensures r in out {
      var k :| 0 <= k < |store| && store[k] == r;
      if k < i { assert out[k] == r; } else { assert out[k - 1] == r; }
    }
  }

  /** As written, a caller can create a record that another user holds:
      "bob" posts a body with `userId: "alice"`. */
  lemma OwnerSpoofing()
    ensures var issued := map["t" := Grant(Claims("bob", "bob@example.com"), 100)];
            var o := Create(BodyMayOverride, [], Some("Bearer t"), map["userId" := JStr("alice")], "a1", 0, issued, None);
            && Authenticate(Some("Bearer t"), issued, Seconds(0)) == Caller("bob")
            && o.reply.Created?
            && OwnedBy(o.reply.record, "alice")
            && Holdings(o.store, "alice") != Holdings([], "alice")
  {
    BearerTokenOf("t");
    var issued := map["t" := Grant(Claims("bob", "bob@example.com"), 100)];
    var o := Create(BodyMayOverride, [], Some("Bearer t"), map["userId" := JStr("alice")], "a1", 0, issued, None);
    assert Authenticate(Some("Bearer t"), issued, Seconds(0)) == Caller("bob");
    assert o.reply.record in Holdings(o.store, "alice");
    assert Holdings([], "alice") == {};
  }

  /** As written, an update can give a record away through the `$set`
      operator: "bob" updates his own record with
      `{"$set": {"userId": "alice"}}`, and it becomes one alice holds. */
  lemma OperatorSpoofing()
    ensures var issued := map["t" := Grant(Claims("bob", "bob@example.com"), 100)];
            var o := Update(BodyMayOverride, [Record("a1", map["userId" := JStr("bob")], 0)], Some("Bearer t"), "a1",
                            map["$set" := JObj(map["userId" := JStr("alice")])], 1, issued, None);
            && Authenticate(Some("Bearer t"), issued, Seconds(1)) == Caller("bob")
            && o.reply.Updated? && OwnedBy(o.reply.record, "alice")
            && Holdings(o.store, "alice") != Holdings([Record("a1", map["userId" := JStr("bob")], 0)], "alice")
  {
    BearerTokenOf("t");
    var issued := map["t" := Grant(Claims("bob", "bob@example.com"), 100)];
    var mine := Record("a1", map["userId" := JStr("bob")], 0);
    var body := map["$set" := JObj(map["userId" := JStr("alice")])];
    assert Authenticate(Some("Bearer t"), issued, Seconds(1)) == Caller("bob");
    assert FindOwned([mine], "a1", "bob") == Some(0);
    SetOwnerMerged(mine.fields, "alice");
    var o := Update(BodyMayOverride, [mine], Some("Bearer t"), "a1", body, 1, issued, None);
    assert o.store == [o.reply.record];
    assert o.reply.record in Holdings(o.store, "alice");
    assert Holdings([mine], "alice") == {};
  }

  /** A field sent both plain and inside `$set` takes the plain value:
      `{"name": "A", "$set": {"name": "B"}}` stores the name "A". */
  lemma PlainBeatsSet()
    ensures var body := map["name" := JStr("A"), "$set" := JObj(map["name" := JStr("B")])];
            MergedFields(BodyMayOverride, map[], body)["name"] == JStr("A")
  {
  }

  /** Merging `{"$set": {"userId": owner}}` as written makes `owner` the
      owner. */
  lemma SetOwnerMerged(prior: map<string, Json>, owner: string)
    ensures var f := MergedFields(BodyMayOverride, prior, map["$set" := JObj(map["userId" := JStr(owner)])]);
            "userId" in f && f["userId"] == JStr(owner)
  {
    var body := map["$set" := JObj(map["userId" := JStr(owner)])];
    assert "$set"[0] == '$';
    assert SetFields(body) == map["userId" := JStr(owner)];
    assert UnsetKeys(body) == {};
  }
}

=== FILE: authcontext.dfy ===
/** The React auth context of `src/contexts/AuthContext.tsx` as a state
    machine over the stored token (`localStorage["token"]`), the current
    user and the loading flag. The `/auth/me` answer is an input. */
module AuthContext {

  import opened Js
  import opened Browser
  import ApiClient
  import RestApi

  /** The provider's state: `user` is `None` for `undefined` and
      `Some(JNull)` for `null`. */
  datatype Ctx = Ctx(user: Option<Json>, loading: bool)

  /** The state a provider mounts with. */
  const Initial := Ctx(Some(JNull), true)

  datatype Refreshed = Refreshed(ctx: Ctx, storage: Storage, request: Option<ApiClient.Headers>)

  /** `refreshUser()`: with no stored token, only stop loading; otherwise
      ask `/auth/me` and take its `user`, or on any failure forget the
      token and the user. Destructuring `{ user }` out of a `null` body
      throws. */
  function RefreshUser(ctx: Ctx, b: Storage, res: ApiClient.Response): (r: Refreshed)
    ensures !r.ctx.loading
    ensures !TruthyStr(GetItem(b.local, RestApi.TokenKey)) ==> r == Refreshed(ctx.(loading := false), b, None)
    ensures TruthyStr(GetItem(b.local, RestApi.TokenKey)) ==>
              && r.request == Some(RestApi.Headers(GetItem(b.local, RestApi.TokenKey), map[]))
              && var out := RestApi.Settle(res);
                 && (out.Resolved? && out.data != JNull ==>
                       r.ctx.user == Prop(Some(out.data), "user") && r.storage == b)
                 && (!(out.Resolved? && out.data != JNull) ==>
                       r.ctx.user == Some(JNull) && r.storage == RemoveLocal(b, RestApi.TokenKey))
  {
    var token := GetItem(b.local, RestApi.TokenKey);
    if !TruthyStr(token) then Refreshed(ctx.(loading := false), b, None)
    else
      var e := RestApi.Fetch(b, map[], res);
      if e.result.Resolved? && e.result.data != JNull then
        Refreshed(Ctx(Prop(Some(e.result.data), "user"), false), b, Some(e.sent))
      else
        Refreshed(Ctx(Some(JNull), false), RemoveLocal(b, RestApi.TokenKey), Some(e.sent))
  }

  /** A refresh request always carries the stored token. */
  lemma RefreshSendsToken(ctx: Ctx, b: Storage, res: ApiClient.Response)
    requires TruthyStr(GetItem(b.local, RestApi.TokenKey))
    ensures var h := RefreshUser(ctx, b, res).request.value;
            "Authorization" in h && h["Authorization"] == "Bearer " + b.local[RestApi.TokenKey]
  {
  }

  /** After a failed refresh the next refresh makes no request. */
  lemma {:induction false} FailedRefreshIsFinal(ctx: Ctx, b: Storage, res: ApiClient.Response, res2: ApiClient.Response)
    requires TruthyStr(GetItem(b.local, RestApi.TokenKey))
    requires !RestApi.Settle(res).Resolved?
    ensures var r := RefreshUser(ctx, b, res);
            RefreshUser(r.ctx, r.storage, res2) == Refreshed(r.ctx, r.storage, None)
  {
    var r := RefreshUser(ctx, b, res);
    assert GetItem(r.storage.local, RestApi.TokenKey) == None;
  }

  /** `login(token, userData)` */
  function Login(ctx: Ctx, b: Storage, token: string, user: Json): (r: (Ctx, Storage))
    ensures GetItem(r.1.local, RestApi.TokenKey) == Some(token) && r.0.user == Some(user)
    ensures r.0.loading == ctx.loading
    ensures r.1.session == b.session
    ensures forall k :: k != RestApi.TokenKey ==> GetItem(r.1.local, k) == GetItem(b.local, k)
  {
    (ctx.(user := Some(user)), SetLocal(b, RestApi.TokenKey, token))
  }

  /** `logout()` */
  function Logout(ctx: Ctx, b: Storage): (r: (Ctx, Storage))
    ensures GetItem(r.1.local, RestApi.TokenKey) == None && r.0.user == Some(JNull)
    ensures r.0.loading == ctx.loading
    ensures r.1.session == b.session
    ensures forall k :: k != RestApi.TokenKey ==> GetItem(r.1.local, k) == GetItem(b.local, k)
  {
    (ctx.(user := Some(JNull)), RemoveLocal(b, RestApi.TokenKey))
  }

  /** Logging in and then refreshing against a server that answers with the
      same user keeps that user. */
  lemma LoginThenRefresh(ctx: Ctx, b: Storage, token: string, user: Json)
    requires token != ""
    ensures var (c1, b1) := Login(ctx, b, token, user);
            var r := RefreshUser(c1, b1, ApiClient.Response(200, Some(JObj(map["user" := user]))));
            r.ctx == Ctx(Some(user), false) && r.storage == b1
  {
  }

  /** After logout a refresh makes no request and leaves the user null. */
  lemma LogoutThenRefresh(ctx: Ctx, b: Storage, res: ApiClient.Response)
    ensures var (c1, b1) := Logout(ctx, b);
            RefreshUser(c1, b1, res) == Refreshed(Ctx(Some(JNull), false), b1, None)
  {
  }

  datatype Hook = Context(ctx: Ctx) | Throws(message: string)

  /** `useAuth()`: the nearest provider's value, or an error outside any
      provider. */
  function UseAuth(provider: Option<Ctx>): (h: Hook)
    ensures provider.None? <==> h == Throws("useAuth must be used within an AuthProvider")
    ensures provider.Some? ==> h == Context(provider.value)
  {
    if provider.None? then Throws("useAuth must be used within an AuthProvider") else Context(provider.value)
  }
}

=== FILE: browser.dfy ===
/** The two Web Storage areas of the browser, `localStorage` and
    `sessionStorage`, as string-to-string maps, and the two-tier item
    discipline the client builds on them: an item is written to exactly one
    area and read from the local area first. */
module Browser {

  import opened Js

  type Area = map<string, string>

  datatype Storage = Storage(local: Area, session: Area)

  /** `area.getItem(k)`: the stored text, or `null`. */
  function GetItem(area: Area, k: string): Option<string> {
    if k in area then Some(area[k]) else None
  }

  /** `localStorage.getItem(k) || sessionStorage.getItem(k)`. An empty local
      value is falsy, so it falls through to the session area. */
  function Lookup(b: Storage, k: string): (v: Option<string>)
    ensures k in b.local && b.local[k] != "" ==> v == Some(b.local[k])
    ensures (k !in b.local || b.local[k] == "") ==> v == GetItem(b.session, k)
  {
    if TruthyStr(GetItem(b.local, k)) then GetItem(b.local, k) else GetItem(b.session, k)
  }

  /** Writing an item: with `remember` to the local area, removing any
      session copy; without it to the session area, removing any local
      copy. */
  function Store(b: Storage, k: string, v: string, remember: bool): (r: Storage)
    ensures remember ==> r.local == b.local[k := v] && r.session == b.session - {k}
    ensures !remember ==> r.session == b.session[k := v] && r.local == b.local - {k}
  {
    if remember then Storage(b.local[k := v], b.session - {k})
    else Storage(b.local - {k}, b.session[k := v])
  }

  /** Removing an item from both areas. */
  function Clear(b: Storage, k: string): (r: Storage)
    ensures k !in r.local && k !in r.session
    ensures forall j :: j != k ==> GetItem(r.local, j) == GetItem(b.local, j) && GetItem(r.session, j) == GetItem(b.session, j)
  {
    Storage(b.local - {k}, b.session - {k})
  }

  /** What is read back after a write: the written text, except that an
      empty text written with `remember` reads back as `null` (it is falsy
      in the local area and the session copy is gone). */
  lemma LookupAfterStore(b: Storage, k: string, v: string, remember: bool)
    ensures Lookup(Store(b, k, v, remember), k) == if remember && v == "" then None else Some(v)
    ensures remember ==> k !in Store(b, k, v, remember).session
    ensures !remember ==> k !in Store(b, k, v, remember).local
  {
  }

  lemma LookupAfterClear(b: Storage, k: string)
    ensures Lookup(Clear(b, k), k) == None
  {
  }

  /** Writing or clearing one item leaves every other item as it reads. */
  lemma OtherItemsUnaffected(b: Storage, k: string, v: string, remember: bool, j: string)
    requires j != k
    ensures Lookup(Store(b, k, v, remember), j) == Lookup(b, j)
    ensures Lookup(Clear(b, k), j) == Lookup(b, j)
    ensures GetItem(Store(b, k, v, remember).local, j) == GetItem(b.local, j)
    ensures GetItem(Clear(b, k).local, j) == GetItem(b.local, j)
  {
  }

  /** `localStorage.setItem(k, v)` and `localStorage.removeItem(k)`, the
      single-area operations used where no session tier exists. */
  function SetLocal(b: Storage, k: string, v: string): (r: Storage)
    ensures GetItem(r.local, k) == Some(v) && r.session == b.session
    ensures forall j :: j != k ==> GetItem(r.local, j) == GetItem(b.local, j)
  {
    b.(local := b.local[k := v])
  }

  function RemoveLocal(b: Storage, k: string): (r: Storage)
    ensures GetItem(r.local, k) == None && r.session == b.session
    ensures forall j :: j != k ==> GetItem(r.local, j) == GetItem(b.local, j)
  {
    b.(local := b.local - {k})
  }
}

=== FILE: chat.dfy ===
/** What the three chat handlers (the Express `/api/voice-chat` route, the
    `voice-chat` edge function and the `assistant-widget` edge function)
    share: spreading the conversation history, assembling the message
    list, the outbound completion request, and reading the reply out of
    the gateway's answer. The gateway itself is not modelled; its answer
    is an input. */
module Chat {

  import opened Js
  import opened Strings

  /** The text of an error body. `Runtime` stands for the message of an
      exception the JavaScript engine raises itself (a TypeError or a
      SyntaxError), whose wording the engine chooses. */
  datatype ErrorText = Text(s: string) | Runtime

  /** A handler's answer: a JSON object with status 200, an error with its
      status, or the empty CORS answer to a preflight request. */
  datatype Reply = Answer(body: map<string, Json>) | Failure(status: nat, error: ErrorText) | Preflight

  const UserMessageRequired := "userMessage is required"

  /** `{ role, content }` */
  function Message(role: string, content: Json): Json {
    JObj(map["role" := JStr(role), "content" := content])
  }

  /** The result of spreading `conversationHistory || []` into an array. */
  datatype Spread = Spread(items: seq<Json>) | NotIterable

  /** `...(history || [])`: a falsy value spreads nothing, an array its
      elements, a string its characters; anything else is not iterable and
      throws a TypeError. */
  function SpreadHistory(history: Option<Json>): (r: Spread)
    ensures !TruthyOpt(history) ==> r == Spread([])
    ensures TruthyOpt(history) && history.value.JArr? ==> r == Spread(history.value.items)
    ensures TruthyOpt(history) && history.value.JStr? ==>
              r.Spread? && |r.items| == |history.value.s|
              && forall i | 0 <= i < |r.items| :: r.items[i] == JStr([history.value.s[i]])
    ensures r.NotIterable? <==>
              TruthyOpt(history) && (history.value.JObj? || history.value.JNum? || history.value.JBool?)
  {
    if !TruthyOpt(history) then Spread([])
    else match history.value
      case JArr(items) => Spread(items)
      case JStr(s) => Spread(Characters(s))
      case _ => NotIterable
  }

  /** The one-character strings of a string, in order. */
  function Characters(s: string): (r: seq<Json>)
    ensures |r| == |s| && forall i | 0 <= i < |r| :: r[i] == JStr([s[i]])
  {
    if |s| == 0 then [] else [JStr([s[0]])] + Characters(s[1..])
  }

  /** `[{ role: 'system', content: system }, ...history, { role: 'user',
      content: user }]` */
  function Assemble(system: Json, history: seq<Json>, user: Json): (m: seq<Json>)
    ensures |m| == |history| + 2
    ensures m[0] == Message("system", system) && m[|m| - 1] == Message("user", user)
    ensures m[1..|m| - 1] == history
  {
    [Message("system", system)] + history + [Message("user", user)]
  }

  /** The request body sent to a chat-completions gateway, with the key
      sent as `Authorization: Bearer <key>`. */
  datatype Completion = Completion(
    authorization: string,
    model: string,
    messages: seq<Json>,
    temperature: Json,
    maxTokens: nat)

  const MaxTokens: nat := 300
  const DefaultTemperature := JNum("0.7")

  /** `temperature ?? 0.7`: only an absent or `null` temperature is
      replaced, so 0 is kept. */
  function Temperature(t: Option<Json>): (r: Json)
    ensures Nullish(t) ==> r == DefaultTemperature
    ensures !Nullish(t) ==> r == t.value
  {
    Coalesce(t, DefaultTemperature)
  }

  /** The gateway's answer: its status, its body as text and its body
      parsed as JSON (`None` when that fails). */
  datatype Gateway = Gateway(status: nat, text: string, json: Option<Json>)

  predicate Ok(status: nat) {
    200 <= status <= 299
  }

  /** `data.choices?.[0]?.message?.content ?? fallback`. Reading
      `choices` of a `null` body throws, which is `None`. */
  function ReplyOf(data: Json, fallback: string): (r: Option<Json>)
    ensures r.None? <==> data == JNull
    ensures r.Some? ==> !Nullish(r)
  {
    if data == JNull then None
    else
      var content := Prop(Prop(Prop(Prop(Some(data), "choices"), "0"), "message"), "content");
      Some(Coalesce(content, JStr(fallback)))
  }

  /** A well-formed completion answer: `{ choices: [{ message: { content } }, ...] }`. */
  function CompletionAnswer(contents: seq<Json>): Json {
    JObj(map["choices" := JArr(seq(|contents|, i requires 0 <= i < |contents| =>
      JObj(map["message" := JObj(map["content" := contents[i]])])))])
  }

  /** The reply is the first choice's content, kept even when it is empty
      text, and the fallback when there is no choice or its content is
      `null`. */
  lemma ReplyOfCompletion(contents: seq<Json>, fallback: string)
    ensures |contents| > 0 && contents[0] != JNull ==> ReplyOf(CompletionAnswer(contents), fallback) == Some(contents[0])
    ensures |contents| > 0 && contents[0] == JNull ==> ReplyOf(CompletionAnswer(contents), fallback) == Some(JStr(fallback))
    ensures |contents| == 0 ==> ReplyOf(CompletionAnswer(contents), fallback) == Some(JStr(fallback))
  {
    assert IndexOf("0") == 0 by {
      assert IsDigits("0");
      assert DigitsValue("0") == 0;
    }
  }

  /** An answer without `choices` (an error object, say) yields the
      fallback. */
  lemma ReplyOfWithoutChoices(fields: map<string, Json>, fallback: string)
    requires "choices" !in fields
    ensures ReplyOf(JObj(fields), fallback) == Some(JStr(fallback))
  {
  }

  /** The text of a gateway error: `<prefix>: <status> - <body text>`. */
  function GatewayError(prefix: string, g: Gateway): string {
    prefix + ": " + NatToString(g.status) + " - " + g.text
  }
}

=== FILE: client.dfy ===
/** The browser API client of `src/integrations/supabase/client.ts`: token
    and user storage over the two storage tiers, `apiFetch`, and the
    session operations of `auth`.

    The network is not modelled: a request is described by its headers and
    the server's answer is an input `Response`. `JSON.stringify` and
    `JSON.parse` are a `Codec` given by the caller, assumed to round-trip. */
module ApiClient {

  import opened Js
  import opened Strings
  import opened Browser

  const TokenKey := "voxai_token"
  const UserKey := "voxai_user"

  // ---------------------------------------------------------------------
  // JSON text

  /** `JSON.stringify` and `JSON.parse`; a parse that throws is `None`. */
  datatype Codec = Codec(stringify: Json -> string, parse: string -> Option<Json>)

  /** The laws of the real pair that the client relies on: parsing undoes
      stringifying, and neither "" nor "undefined" is JSON text. */
  ghost predicate Faithful(c: Codec) {
    && (forall j :: c.parse(c.stringify(j)) == Some(j))
    && c.parse("") == None && c.parse("undefined") == None
  }

  /** `JSON.stringify(v)` as `setItem` stores it: `undefined` stringifies to
      `undefined`, which `setItem` coerces to the text "undefined". */
  function StoredText(c: Codec, v: Option<Json>): string {
    if v.None? then "undefined" else c.stringify(v.value)
  }

  // ---------------------------------------------------------------------
  // token and user storage

  /** `getToken()` */
  function GetToken(b: Storage): Option<string> {
    Lookup(b, TokenKey)
  }

  /** `setToken(token, remember)`; `setItem` coerces a non-string token with
      `String()`, and `undefined` to "undefined". */
  function SetToken(b: Storage, token: Option<Json>, remember: bool): Storage {
    Store(b, TokenKey, if token.None? then "undefined" else JsString(token.value), remember)
  }

  function ClearToken(b: Storage): Storage {
    Clear(b, TokenKey)
  }

  datatype UserRead = NoUser | StoredUser(user: Json) | Unparseable

  /** `getUser()`: no (or empty) text is `null`; otherwise `JSON.parse`,
      which throws on text that is not JSON. */
  function GetUser(c: Codec, b: Storage): UserRead {
    var raw := Lookup(b, UserKey);
    if !TruthyStr(raw) then NoUser
    else match c.parse(raw.value)
      case None => Unparseable
      case Some(u) => StoredUser(u)
  }

  function SetUser(c: Codec, b: Storage, user: Option<Json>, remember: bool): Storage {
    Store(b, UserKey, StoredText(c, user), remember)
  }

  function ClearUser(b: Storage): Storage {
    Clear(b, UserKey)
  }

  /** The token laws: a stored token reads back (unless it is empty and
      remembered), lives in exactly one tier, and clearing removes it. */
  lemma TokenLaws(c: Codec, b: Storage, t: string, remember: bool)
    ensures GetToken(SetToken(b, Some(JStr(t)), remember)) == if remember && t == "" then None else Some(t)
    ensures remember ==> TokenKey !in SetToken(b, Some(JStr(t)), remember).session
    ensures !remember ==> TokenKey !in SetToken(b, Some(JStr(t)), remember).local
    ensures GetToken(ClearToken(b)) == None
    ensures GetUser(c, SetToken(b, Some(JStr(t)), remember)) == GetUser(c, b)
    ensures GetUser(c, ClearToken(b)) == GetUser(c, b)
  {
    LookupAfterStore(b, TokenKey, t, remember);
    LookupAfterClear(b, TokenKey);
    OtherItemsUnaffected(b, TokenKey, t, remember, UserKey);
  }

  /** The user laws, given a faithful codec: a stored user reads back as
      itself, an `undefined` user reads back as a parse failure, clearing
      leaves no user, and none of it touches the token. */
  lemma {:induction false} UserLaws(c: Codec, b: Storage, u: Json, remember: bool)
    requires Faithful(c)
    ensures GetUser(c, SetUser(c, b, Some(u), remember)) == StoredUser(u)
    ensures GetUser(c, SetUser(c, b, None, remember)) == Unparseable
    ensures GetUser(c, ClearUser(b)) == NoUser
    ensures GetToken(SetUser(c, b, Some(u), remember)) == GetToken(b)
    ensures GetToken(ClearUser(b)) == GetToken(b)
  {
    var text := c.stringify(u);
    assert c.parse(text) == Some(u);
    assert text != "";
    LookupAfterStore(b, UserKey, text, remember);
    LookupAfterStore(b, UserKey, "undefined", remember);
    LookupAfterClear(b, UserKey);
    OtherItemsUnaffected(b, UserKey, text, remember, TokenKey);
  }

  // ---------------------------------------------------------------------
  // apiFetch

  type Headers = map<string, string>

  /** A server answer: its status and its body parsed as JSON (`None` when
      `res.json()` rejects). */
  datatype Response = Response(status: nat, body: Option<Json>)

  /** `res.ok` */
  predicate Ok(status: nat) {
    200 <= status <= 299
  }

  /** The request headers: the JSON content type, overridden by the caller's
      headers, and then the stored token as a Bearer `Authorization`
      header, which overrides the caller's. */
  function BuildHeaders(token: Option<string>, caller: Headers): (h: Headers)
    ensures TruthyStr(token) ==> "Authorization" in h && h["Authorization"] == "Bearer " + token.value
    ensures !TruthyStr(token) ==> ("Authorization" in h <==> "Authorization" in caller)
    ensures "Content-Type" in h
    ensures h["Content-Type"] == if "Content-Type" in caller then caller["Content-Type"] else "application/json"
    ensures h.Keys == caller.Keys + {"Content-Type"} + (if TruthyStr(token) then {"Authorization"} else {})
    ensures forall k | k in caller && k != "Authorization" :: h[k] == caller[k]
    ensures !TruthyStr(token) ==> forall k | k in caller :: h[k] == caller[k]
  {
    var base := map["Content-Type" := "application/json"] + caller;
    if TruthyStr(token) then base["Authorization" := "Bearer " + token.value] else base
  }

  /** The result of `apiFetch`: the parsed body, or the message of the
      `Error` it throws. A body that fails to parse on an OK response
      rethrows the `SyntaxError` of `res.json()`. */
  datatype Fetched = Data(data: Json) | Thrown(message: string) | SyntaxError

  function GenericFailure(status: nat): string {
    "Request failed with status " + NatToString(status)
  }

  /** The response handling of `apiFetch` as written: the `Error` thrown
      for a non-OK status inside the `try` is caught by its own `catch`,
      which replaces it whenever the status is not OK. */
  function Settle(res: Response): (f: Fetched)
    ensures !Ok(res.status) ==> f == Thrown(GenericFailure(res.status))
    ensures Ok(res.status) ==> (f.Data? <==> res.body.Some?) && (res.body.Some? ==> f == Data(res.body.value))
    ensures Ok(res.status) && res.body.None? ==> f == SyntaxError
  {
    var thrownInTry: Fetched :=
      match res.body
      case None => SyntaxError
      case Some(data) =>
        if !Ok(res.status) then
          // `data.error` on a null body is itself a TypeError; either way
          // control reaches the `catch`.
          if data == JNull then Thrown("TypeError")
          else Thrown(JsString(Or(Prop(res.body, "error"), JStr(GenericFailure(res.status)))))
        else Data(data);
    if thrownInTry.Data? then thrownInTry
    else if !Ok(res.status) then Thrown(GenericFailure(res.status))
    else thrownInTry
  }

  /** Whatever the server says about a failed request, the client reports
      only its status. */
  lemma ServerErrorDiscarded(msg: string, status: nat)
    requires !Ok(status) && msg != ""
    ensures Settle(Response(status, Some(ErrorBody(msg)))) == Thrown(GenericFailure(status))
    ensures msg != GenericFailure(status) ==>
              Settle(Response(status, Some(ErrorBody(msg)))) != Thrown(msg)
  {
  }

  /** A concrete instance: a duplicate signup's 400 reaches the user as
      "Request failed with status 400". */
  lemma DuplicateSignupMessageLost()
    ensures Settle(Response(400, Some(ErrorBody("User already exists with this email"))))
            == Thrown("Request failed with status 400")
  {
    assert NatToString(4) == "4";
    assert NatToString(40) == "40";
    assert NatToString(400) == "400";
  }

  /** The handling the comment in the `catch` describes: the generic
      message is only for a body that is not JSON (or has no usable
      `error`); a server's `error` text is surfaced. */
  function SettleIntended(res: Response): (f: Fetched)
    ensures Ok(res.status) ==> f == Settle(res)
    ensures !Ok(res.status) ==> f.Thrown?
    ensures !Ok(res.status) && TruthyOpt(Prop(res.body, "error")) ==>
              f == Thrown(JsString(Prop(res.body, "error").value))
    ensures !Ok(res.status) && !TruthyOpt(Prop(res.body, "error")) ==> f == Settle(res)
  {
    if Ok(res.status) then Settle(res)
    else Thrown(JsString(Or(Prop(res.body, "error"), JStr(GenericFailure(res.status)))))
  }

  /** With the intended handling, a server error message reaches the
      caller verbatim. */
  lemma ServerErrorSurfaced(msg: string, status: nat)
    requires !Ok(status) && msg != ""
    ensures SettleIntended(Response(status, Some(ErrorBody(msg)))) == Thrown(msg)
  {
  }

  /** `apiFetch(path, { headers })` against the stored token: the headers
      sent and the result. */
  datatype Exchange = Exchange(sent: Headers, result: Fetched)

  function Fetch(b: Storage, caller: Headers, res: Response): (e: Exchange)
    ensures TruthyStr(GetToken(b)) ==>
              "Authorization" in e.sent && e.sent["Authorization"] == "Bearer " + GetToken(b).value
    ensures !TruthyStr(GetToken(b)) ==> e.sent == map["Content-Type" := "application/json"] + caller
    ensures !Ok(res.status) ==> e.result == Thrown(GenericFailure(res.status))
    ensures Ok(res.status) ==> e.result == Settle(res)
  {
    Exchange(BuildHeaders(GetToken(b), caller), Settle(res))
  }

  /** A request made after signing in carries the token the sign-in reply
      handed out, in whichever tier it was remembered. */
  lemma {:induction false} SignInThenFetch(c: Codec, b: Storage, user: Json, token: string, remember: bool,
                                           caller: Headers, res: Response)
    requires token != ""
    ensures var reply := JObj(map["user" := user, "token" := JStr(token)]);
            var e := Fetch(Remember(c, b, Data(reply), remember).storage, caller, res);
            "Authorization" in e.sent && e.sent["Authorization"] == "Bearer " + token
  {
    var reply := JObj(map["user" := user, "token" := JStr(token)]);
    var b1 := SetToken(b, Some(JStr(token)), remember);
    TokenLaws(c, b, token, remember);
    LookupAfterStore(b1, UserKey, StoredText(c, Some(user)), remember);
    OtherItemsUnaffected(b1, UserKey, StoredText(c, Some(user)), remember, TokenKey);
    assert Remember(c, b, Data(reply), remember).storage == SetUser(c, b1, Some(user), remember);
  }

  /** After signing out a request carries no token: its `Authorization`
      header, if any, is the caller's own. */
  lemma FetchAfterSignOut(b: Storage, caller: Headers, res: Response)
    ensures var e := Fetch(SignOut(b), caller, res);
            ("Authorization" in e.sent <==> "Authorization" in caller)
            && forall k | k in caller :: e.sent[k] == caller[k]
  {
  }

  // ---------------------------------------------------------------------
  // auth

  /** The object `auth` methods resolve to or the error they reject with. */
  datatype Step<T> = Resolved(value: T, storage: Storage) | Rejected(message: string, storage: Storage)

  /** `signUp` / `signIn` after the request: on success store the token and
      user of the reply in the chosen tier. Reading `token` of a `null`
      body is a TypeError. */
  function Remember(c: Codec, b: Storage, f: Fetched, remember: bool): (s: Step<Json>)
    ensures f.Data? && f.data != JNull ==>
              s == Resolved(f.data, SetUser(c, SetToken(b, Prop(Some(f.data), "token"), remember),
                                            Prop(Some(f.data), "user"), remember))
    ensures !(f.Data? && f.data != JNull) ==> s.Rejected? && s.storage == b
  {
    match f
    case Data(d) =>
      if d == JNull then Rejected("TypeError", b)
      else
        var b1 := SetToken(b, Prop(Some(d), "token"), remember);
        Resolved(d, SetUser(c, b1, Prop(Some(d), "user"), remember))
    case Thrown(m) => Rejected(m, b)
    case SyntaxError => Rejected("SyntaxError", b)
  }

  /** `signOut()` */
  function SignOut(b: Storage): (r: Storage)
    ensures GetToken(r) == None && Lookup(r, UserKey) == None
  {
    ClearUser(ClearToken(b))
  }

  datatype SessionResult = NoSession | LiveSession(user: Option<Json>, token: string)

  /** `getSession()`: no stored token means no request and no session;
      otherwise `/auth/me` is asked and its user is remembered, and any
      failure clears both token and user. `requested` says whether a
      request was made. */
  datatype SessionStep = SessionStep(result: SessionResult, storage: Storage, requested: bool)

  function GetSession(c: Codec, b: Storage, res: Response): (s: SessionStep)
    ensures !TruthyStr(GetToken(b)) ==> s == SessionStep(NoSession, b, false)
    ensures TruthyStr(GetToken(b)) ==> s.requested
    ensures TruthyStr(GetToken(b)) && s.result.NoSession? ==>
              GetToken(s.storage) == None && Lookup(s.storage, UserKey) == None
    ensures TruthyStr(GetToken(b)) ==> (s.result.LiveSession? <==> Settle(res).Data? && Settle(res).data != JNull)
    ensures TruthyStr(GetToken(b)) && s.result.NoSession? ==> s.storage == ClearUser(ClearToken(b))
    ensures s.result.LiveSession? ==>
              && Settle(res).Data? && Settle(res).data != JNull
              && s.result == LiveSession(Prop(res.body, "user"), GetToken(b).value)
              && s.storage == SetUser(c, b, Prop(res.body, "user"), true)
  {
    var token := GetToken(b);
    if !TruthyStr(token) then SessionStep(NoSession, b, false)
    else match Fetch(b, map[], res).result
      case Data(d) =>
        if d == JNull then SessionStep(NoSession, ClearUser(ClearToken(b)), true)
        else
          SessionStep(LiveSession(Prop(Some(d), "user"), token.value), SetUser(c, b, Prop(Some(d), "user"), true), true)
      case _ => SessionStep(NoSession, ClearUser(ClearToken(b)), true)
  }

  datatype AuthEvent = SignedIn(user: Json, token: string) | Quiet | ParseFailure

  /** `onAuthStateChange(callback)`: the immediate callback it makes, if
      any. Reading a stored user that is not JSON throws. */
  function OnAuthStateChange(c: Codec, b: Storage): (e: AuthEvent)
    ensures e.SignedIn? <==>
              TruthyStr(GetToken(b)) && GetUser(c, b).StoredUser? && Truthy(GetUser(c, b).user)
    ensures e.SignedIn? ==> e == SignedIn(GetUser(c, b).user, GetToken(b).value)
    ensures e == ParseFailure <==> GetUser(c, b).Unparseable?
  {
    var token := GetToken(b);
    match GetUser(c, b)
    case Unparseable => ParseFailure
    case NoUser => Quiet
    case StoredUser(u) => if TruthyStr(token) && Truthy(u) then SignedIn(u, token.value) else Quiet
  }

  /** After signing in with a reply carrying a user object and a non-empty
      token, the client reports that user as signed in. */
  lemma {:induction false} SignInThenSignedIn(c: Codec, b: Storage, user: map<string, Json>, token: string, remember: bool)
    requires Faithful(c) && token != ""
    ensures var reply := JObj(map["user" := JObj(user), "token" := JStr(token)]);
            var s := Remember(c, b, Data(reply), remember);
            s.Resolved? && OnAuthStateChange(c, s.storage) == SignedIn(JObj(user), token)
  {
    var reply := JObj(map["user" := JObj(user), "token" := JStr(token)]);
    var b1 := SetToken(b, Some(JStr(token)), remember);
    TokenLaws(c, b, token, remember);
    UserLaws(c, b1, JObj(user), remember);
  }

  /** After signing out nothing is signed in. */
  lemma SignOutQuiet(c: Codec, b: Storage)
    ensures OnAuthStateChange(c, SignOut(b)) == Quiet
  {
  }

  /** After signing out, `getSession` makes no request and finds no
      session. */
  lemma SignOutThenGetSession(c: Codec, b: Storage, res: Response)
    ensures GetSession(c, SignOut(b), res) == SessionStep(NoSession, SignOut(b), false)
  {
  }

  /** A session check that fails leaves nothing signed in. */
  lemma FailedSessionQuiet(c: Codec, b: Storage, res: Response)
    requires TruthyStr(GetToken(b)) && GetSession(c, b, res).result.NoSession?
    ensures OnAuthStateChange(c, GetSession(c, b, res).storage) == Quiet
  {
  }

  /** A session check that succeeds with a user object reports that user
      as signed in with the stored token. */
  lemma {:induction false} LiveSessionSignedIn(c: Codec, b: Storage, res: Response)
    requires Faithful(c) && TruthyStr(GetToken(b))
    requires GetSession(c, b, res).result.LiveSession?
    requires TruthyOpt(GetSession(c, b, res).result.user)
    ensures var s := GetSession(c, b, res);
            OnAuthStateChange(c, s.storage) == SignedIn(s.result.user.value, GetToken(b).value)
  {
    var s := GetSession(c, b, res);
    UserLaws(c, b, s.result.user.value, true);
  }
}

=== FILE: crypto.dfy ===
/** The cryptographic services the server uses, each reduced to the laws
    the handlers depend on:
    - `crypto.randomBytes(16).toString('hex')`: the random bytes are an
      input; the hex text is computed and decodes back to them;
    - bcrypt: a symbolic hash that only `Compare` can look into;
    - JSON Web Tokens: the set of tokens issued under the server secret,
      each with its claims and expiry; verification succeeds exactly for
      an issued token before its expiry. */
module Crypto {

  import opened Js
  import opened Strings

  newtype byte = x: int | 0 <= x < 256

  // ---------------------------------------------------------------------
  // hex keys

  predicate IsLowerHex(c: char) {
    '0' <= c <= '9' || 'a' <= c <= 'f'
  }

  function HexChar(k: int): (c: char)
    requires 0 <= k < 16
    ensures IsLowerHex(c)
  {
    if k < 10 then ('0' as int + k) as char else ('a' as int + k - 10) as char
  }

  function HexValue(c: char): (k: int)
    requires IsLowerHex(c)
    ensures 0 <= k < 16
  {
    if c <= '9' then c as int - '0' as int else c as int - 'a' as int + 10
  }

  /** `buf.toString('hex')`: two lower-case digits per byte, high nibble
      first. */
  function Hex(bytes: seq<byte>): (h: string)
    ensures |h| == 2 * |bytes|
    ensures forall i | 0 <= i < |h| :: IsLowerHex(h[i])
  {
    if |bytes| == 0 then ""
    else [HexChar(bytes[0] as int / 16), HexChar(bytes[0] as int % 16)] + Hex(bytes[1..])
  }

  /** Reading hex text back into bytes. */
  function Unhex(h: string): seq<byte>
    requires |h| % 2 == 0
    requires forall i | 0 <= i < |h| :: IsLowerHex(h[i])
  {
    if |h| == 0 then []
    else [(HexValue(h[0]) * 16 + HexValue(h[1])) as byte] + Unhex(h[2..])
  }

  lemma {:induction false} UnhexHex(bytes: seq<byte>)
    ensures Unhex(Hex(bytes)) == bytes
  {
    if |bytes| > 0 {
      var b := bytes[0] as int;
      assert HexValue(HexChar(b / 16)) == b / 16;
      assert HexValue(HexChar(b % 16)) == b % 16;
      assert Hex(bytes)[2..] == Hex(bytes[1..]);
      UnhexHex(bytes[1..]);
    }
  }

  const KeyRandomBytes := 16

  /** `prefix + crypto.randomBytes(16).toString('hex')`, with the random
      bytes given. */
  function NewKey(prefix: string, random: seq<byte>): (key: string)
    requires |random| == KeyRandomBytes
    ensures |key| == |prefix| + 32 && StartsWith(key, prefix)
    ensures forall i | |prefix| <= i < |key| :: IsLowerHex(key[i])
    ensures Unhex(key[|prefix|..]) == random
  {
    var key := prefix + Hex(random);
    assert key[|prefix|..] == Hex(random);
    UnhexHex(random);
    key
  }

  // ---------------------------------------------------------------------
  // bcrypt

  /** The UTF-8 encoding of one character. */
  function Utf8Char(c: char): (b: seq<byte>)
    ensures 1 <= |b| <= 4
    ensures c as int < 0x80 <==> |b| == 1
    ensures c as int < 0x80 ==> b == [c as int as byte]
    ensures c != '\0' ==> forall i | 0 <= i < |b| :: b[i] != 0
  {
    var n := c as int;
    if n < 0x80 then [n as byte]
    else if n < 0x800 then [(0xC0 + n / 0x40) as byte, (0x80 + n % 0x40) as byte]
    else if n < 0x1_0000 then [(0xE0 + n / 0x1000) as byte, (0x80 + n / 0x40 % 0x40) as byte, (0x80 + n % 0x40) as byte]
    else [(0xF0 + n / 0x4_0000) as byte, (0x80 + n / 0x1000 % 0x40) as byte, (0x80 + n / 0x40 % 0x40) as byte,
          (0x80 + n % 0x40) as byte]
  }

  /** The UTF-8 bytes of a string, as bcryptjs reads a password. */
  function Utf8(s: string): (b: seq<byte>)
    ensures |b| >= |s|
  {
    if |s| == 0 then [] else Utf8Char(s[0]) + Utf8(s[1..])
  }

  /** Characters 1 to 127: one byte each, none of them zero. */
  predicate IsAsciiText(s: string) {
    forall i | 0 <= i < |s| :: 0 < s[i] as int < 0x80
  }

  lemma {:induction false} Utf8Ascii(s: string)
    requires IsAsciiText(s)
    ensures |Utf8(s)| == |s|
    ensures forall i | 0 <= i < |s| :: Utf8(s)[i] == s[i] as int as byte
  {
    if |s| > 0 {
      Utf8Ascii(s[1..]);
      assert Utf8(s) == [s[0] as int as byte] + Utf8(s[1..]);
    }
  }

  /** The bytes of the Blowfish P-array the key schedule is fed: 18 words. */
  const KeyScheduleBytes := 72

  /** The key bcrypt's schedule consumes: the password's UTF-8 bytes and a
      terminating zero byte (the `$2a$`/`$2b$` variants), read cyclically
      until the 72 bytes of the P-array are filled. Bytes past the 72nd are
      never read. */
  function BcryptKey(password: string): (k: seq<byte>)
    ensures |k| == KeyScheduleBytes
    ensures forall i | 0 <= i < KeyScheduleBytes && i < |Utf8(password)| :: k[i] == Utf8(password)[i]
    ensures |Utf8(password)| < KeyScheduleBytes ==> k[|Utf8(password)|] == 0
  {
    var b := Utf8(password) + [0];
    var k := seq(KeyScheduleBytes, i requires 0 <= i < KeyScheduleBytes => b[i % |b|]);
    forall i | 0 <= i < KeyScheduleBytes && i < |b| ensures k[i] == b[i] {
      ModSmall(i, |b|);
    }
    k
  }

  lemma ModSmall(i: nat, n: nat)
    requires i < n
    ensures i % n == i
  {
  }

  /** A bcrypt hash, kept symbolic: the key the schedule consumed stands
      for the one-way digest, and nothing but `Compare` inspects it. */
  datatype PasswordHash = Bcrypt(rounds: nat, salt: string, image: Digest)
  datatype Digest = Digest(key: seq<byte>)

  /** The cost factor of `bcrypt.hash(password, 10)`. */
  const SaltRounds: nat := 10

  /** `bcrypt.compare(password, hash)` */
  predicate Compare(password: string, hash: PasswordHash) {
    hash.image == Digest(BcryptKey(password))
  }

  /** `bcrypt.hash(password, 10)` with the fresh salt given: the password
      matches, and so does exactly every password that feeds the key
      schedule the same bytes. */
  function Hash(password: string, salt: string): (h: PasswordHash)
    ensures h.rounds == SaltRounds && h.salt == salt
    ensures Compare(password, h)
    ensures forall other :: Compare(other, h) <==> BcryptKey(other) == BcryptKey(password)
  {
    Bcrypt(SaltRounds, salt, Digest(BcryptKey(password)))
  }

  /** Only the first 72 bytes count: two passwords whose UTF-8 encodings
      agree on them match each other's hash. */
  lemma LongPasswordsCollide(password: string, other: string, salt: string)
    requires |Utf8(password)| >= KeyScheduleBytes && |Utf8(other)| >= KeyScheduleBytes
    requires Utf8(password)[..KeyScheduleBytes] == Utf8(other)[..KeyScheduleBytes]
    ensures Compare(other, Hash(password, salt))
  {
    var k, k' := BcryptKey(password), BcryptKey(other);
    forall i | 0 <= i < KeyScheduleBytes ensures k[i] == k'[i] {
      assert Utf8(password)[..KeyScheduleBytes][i] == Utf8(other)[..KeyScheduleBytes][i];
    }
  }

  /** An instance: a hash of 80 "a"s is matched by 72 "a"s and a "b". */
  lemma TruncationExample(salt: string)
    ensures var password, other := seq(80, _ => 'a'), seq(72, _ => 'a') + "b";
            other != password && Compare(other, Hash(password, salt))
  {
    var password, other := seq(80, _ => 'a'), seq(72, _ => 'a') + "b";
    Utf8Ascii(password);
    Utf8Ascii(other);
    assert Utf8(password)[..KeyScheduleBytes] == Utf8(other)[..KeyScheduleBytes];
    LongPasswordsCollide(password, other, salt);
    assert |other| != |password|;
  }

  /** Below the limit, an ASCII password is matched by itself alone. */
  lemma {:induction false} ShortAsciiPasswordsDistinct(password: string, other: string, salt: string)
    requires IsAsciiText(password) && IsAsciiText(other)
    requires |password| < KeyScheduleBytes && |other| < KeyScheduleBytes
    ensures Compare(other, Hash(password, salt)) <==> other == password
  {
    Utf8Ascii(password);
    Utf8Ascii(other);
    if BcryptKey(other) == BcryptKey(password) {
      var m := if |password| < |other| then |password| else |other|;
      assert BcryptKey(password)[m] == 0 <==> m == |password|;
      assert BcryptKey(other)[m] == 0 <==> m == |other|;
      assert |password| == |other|;
      forall i | 0 <= i < |password| ensures password[i] == other[i] {
        assert BcryptKey(password)[i] == BcryptKey(other)[i];
      }
    }
  }

  // ---------------------------------------------------------------------
  // JSON Web Tokens

  datatype Claims = Claims(userId: string, email: string)

  /** An issued token: its payload and the second at which it expires. */
  datatype Grant = Grant(claims: Claims, expiresAt: int)

  /** `expiresIn: '7d'`, in seconds. */
  const TokenLifetime: int := 7 * 24 * 60 * 60

  /** The tokens signed so far under the server secret. A string that is
      not a key here fails signature verification. */
  type Issued = map<string, Grant>

  /** `jwt.verify(token, JWT_SECRET)` at second `now`: the claims of an
      issued token, which is rejected from its expiry second on. */
  function Verify(issued: Issued, token: string, now: int): Option<Claims> {
    if token in issued && now < issued[token].expiresAt then Some(issued[token].claims)
    else None
  }

  /** Signing is deterministic, so the string `token` for these claims at
      second `now` is either new or already stands for the same grant. */
  predicate CanSign(issued: Issued, claims: Claims, now: int, token: string) {
    token !in issued || issued[token] == Grant(claims, now + TokenLifetime)
  }

  /** `jwt.sign(claims, JWT_SECRET, { expiresIn: '7d' })` at second `now`,
      producing the string `token`. */
  function Sign(issued: Issued, claims: Claims, now: int, token: string): (r: Issued)
    requires CanSign(issued, claims, now, token)
    ensures forall t :: t < now + TokenLifetime ==> Verify(r, token, t) == Some(claims)
    ensures forall t :: t >= now + TokenLifetime ==> Verify(r, token, t) == None
    ensures forall other, t :: other != token ==> Verify(r, other, t) == Verify(issued, other, t)
  {
    issued[token := Grant(claims, now + TokenLifetime)]
  }

  // ---------------------------------------------------------------------
  // Bearer headers

  /** `authHeader && authHeader.startsWith('Bearer ')` */
  predicate BearerShaped(header: Option<string>) {
    header.Some? && StartsWith(header.value, "Bearer ")
  }

  /** The token of a Bearer header: `header.split(' ')[1]`. */
  function BearerToken(header: string): (t: string)
    requires StartsWith(header, "Bearer ")
    ensures var after := header[7..];
            |t| <= |after| && t == after[..|t|] && ' ' !in t && (|t| == |after| || after[|t|] == ' ')
  {
    assert "Bearer" + " " == "Bearer ";
    SecondPiece(header, "Bearer")
  }

  /** A Bearer header built from a space-free token yields that token. */
  lemma BearerTokenOf(token: string)
    requires ' ' !in token
    ensures StartsWith("Bearer " + token, "Bearer ")
    ensures BearerToken("Bearer " + token) == token
  {
    var h := "Bearer " + token;
    assert h[..7] == "Bearer ";
    assert h[7..] == token;
    var t := BearerToken(h);
  }
}

=== FILE: edgechat.dfy ===
/** The `voice-chat` edge function: the same relay as the Express route,
    against the Lovable gateway, with no echo fallback. The request body is
    read with `req.json()`, so it may be any JSON value or fail to parse. */
module EdgeVoiceChat {

  import opened Js
  import opened Chat
  import VoiceChat

  const DefaultPrompt := "You are a helpful voice assistant. Keep responses concise and conversational."
  const Model := "google/gemini-3-flash-preview"
  const Apology := "I'm sorry, I couldn't generate a response."
  const MissingKey := "LOVABLE_API_KEY not configured"

  datatype Handled = Handled(reply: Reply, call: Option<Completion>)

  /** The function, with the request method, the parsed body (`None` when
      it is not JSON), `LOVABLE_API_KEY` and the gateway's answer as
      inputs. */
  function Handle(verb: string, body: Option<Json>, apiKey: Option<string>, gateway: Gateway): (h: Handled)
    ensures verb == "OPTIONS" ==> h == Handled(Preflight, None)
    ensures verb != "OPTIONS" ==> h.reply != Preflight
    ensures verb != "OPTIONS" && (body.None? || body == Some(JNull)) ==> h == Handled(Failure(500, Runtime), None)
    ensures verb != "OPTIONS" && body.Some? && body.value != JNull && !TruthyOpt(Prop(body, "userMessage")) ==>
              h == Handled(Failure(400, Text(UserMessageRequired)), None)
    ensures verb != "OPTIONS" && body.Some? && body.value != JNull && TruthyOpt(Prop(body, "userMessage"))
              && SpreadHistory(Prop(body, "conversationHistory")).Spread? && !TruthyStr(apiKey) ==>
              h == Handled(Failure(500, Text(MissingKey)), None)
    ensures verb != "OPTIONS" && body.Some? && body.value != JNull && TruthyOpt(Prop(body, "userMessage"))
              && SpreadHistory(Prop(body, "conversationHistory")).Spread? && TruthyStr(apiKey) ==>
              h.call.Some?
    ensures h.call.Some? ==>
              && verb != "OPTIONS" && body.Some? && TruthyOpt(Prop(body, "userMessage")) && TruthyStr(apiKey)
              && var history := SpreadHistory(Prop(body, "conversationHistory"));
                 && history.Spread?
                 && h.call.value == Completion("Bearer " + apiKey.value, Model,
                      Assemble(Or(Prop(body, "systemPrompt"), JStr(DefaultPrompt)), history.items, Prop(body, "userMessage").value),
                      Temperature(Prop(body, "temperature")), MaxTokens)
    ensures h.call.Some? && !Ok(gateway.status) ==>
              h.reply == Failure(500, Text(GatewayError("AI gateway error", gateway)))
    ensures h.call.Some? && Ok(gateway.status) && gateway.json.Some? && gateway.json.value != JNull ==>
              h.reply == Answer(map["reply" := ReplyOf(gateway.json.value, Apology).value])
    ensures h.reply.Failure? ==> h.reply.status in {400, 500}
  {
    if verb == "OPTIONS" then Handled(Preflight, None)
    else if body.None? || body.value == JNull then Handled(Failure(500, Runtime), None)
    else
      var userMessage := Prop(body, "userMessage");
      if !TruthyOpt(userMessage) then Handled(Failure(400, Text(UserMessageRequired)), None)
      else match SpreadHistory(Prop(body, "conversationHistory"))
        case NotIterable => Handled(Failure(500, Runtime), None)
        case Spread(history) =>
          var messages := Assemble(Or(Prop(body, "systemPrompt"), JStr(DefaultPrompt)), history, userMessage.value);
          if !TruthyStr(apiKey) then Handled(Failure(500, Text(MissingKey)), None)
          else
            var call := Completion("Bearer " + apiKey.value, Model, messages, Temperature(Prop(body, "temperature")), MaxTokens);
            if !Ok(gateway.status) then Handled(Failure(500, Text(GatewayError("AI gateway error", gateway))), Some(call))
            else match gateway.json
              case None => Handled(Failure(500, Runtime), Some(call))
              case Some(data) =>
                match ReplyOf(data, Apology)
                case None => Handled(Failure(500, Runtime), Some(call))
                case Some(reply) => Handled(Answer(map["reply" := reply]), Some(call))
  }

  /** For an object body, the edge function sends exactly what the Express
      route sends, apart from the gateway's model and key; and where the
      Express route echoes, the edge function fails. */
  lemma SameMessagesAsExpress(fields: map<string, Json>, key: string, g: Gateway)
    requires key != ""
    ensures var edge := Handle("POST", Some(JObj(fields)), Some(key), g).call;
            var express := VoiceChat.Handle(fields, Some(key), g).call;
            && (edge.Some? <==> express.Some?)
            && (edge.Some? ==> edge.value.messages == express.value.messages
                               && edge.value.temperature == express.value.temperature)
    ensures TruthyOpt(Get(fields, "userMessage")) && SpreadHistory(Get(fields, "conversationHistory")).Spread? ==>
              Handle("POST", Some(JObj(fields)), None, g).reply == Failure(500, Text(MissingKey))
              && VoiceChat.Handle(fields, None, g).reply.Answer?
  {
    var body := Some(JObj(fields));
    assert Prop(body, "userMessage") == Get(fields, "userMessage");
    assert Prop(body, "conversationHistory") == Get(fields, "conversationHistory");
    assert Prop(body, "systemPrompt") == Get(fields, "systemPrompt");
    assert Prop(body, "temperature") == Get(fields, "temperature");
  }
}

=== FILE: js.dfy ===
/** JavaScript values as the application code sees them.

    A JSON value is modelled by `Json`; a property that is absent
    (`undefined`) is `None` of an `Option<Json>`. A number is kept as its
    canonical JavaScript text (what `String(n)` prints, "0.7", "1", "0"),
    so truthiness, `??` and string coercion are exact without modelling
    floating point. */
module Js {

  import opened Strings

  datatype Option<+T> = None | Some(value: T)

  datatype Json =
    | JNull
    | JBool(b: bool)
    | JNum(text: string)
    | JStr(s: string)
    | JArr(items: seq<Json>)
    | JObj(fields: map<string, Json>)

  /** JavaScript truthiness of a present value. */
  predicate Truthy(j: Json) {
    match j
    case JNull => false
    case JBool(b) => b
    case JNum(t) => t != "0" && t != "NaN"
    case JStr(s) => s != ""
    case JArr(_) => true
    case JObj(_) => true
  }

  /** Truthiness of a possibly-undefined value; `undefined` is falsy. */
  predicate TruthyOpt(v: Option<Json>) {
    v.Some? && Truthy(v.value)
  }

  /** Truthiness of a possibly-missing string (`null`, `undefined` or text). */
  predicate TruthyStr(v: Option<string>) {
    v.Some? && v.value != ""
  }

  /** `null` or `undefined`, the values `??` and `?.` treat as absent. */
  predicate Nullish(v: Option<Json>) {
    v.None? || v.value == JNull
  }

  /** `v || d` */
  function Or(v: Option<Json>, d: Json): Json {
    if TruthyOpt(v) then v.value else d
  }

  /** `v ?? d` */
  function Coalesce(v: Option<Json>, d: Json): Json {
    if Nullish(v) then d else v.value
  }

  /** `v || d` on strings */
  function OrStr(v: Option<string>, d: string): string {
    if TruthyStr(v) then v.value else d
  }

  /** Reading a key of a plain object: `o[k]`. */
  function Get(m: map<string, Json>, k: string): Option<Json> {
    if k in m then Some(m[k]) else None
  }

  /** The own properties a value exposes to `.`-access: an object's fields;
      nothing for every other value. */
  function FieldsOf(j: Json): map<string, Json> {
    if j.JObj? then j.fields else map[]
  }

  /** Optional property access `v?.[key]` / `v?.key`. A nullish base yields
      `undefined`; objects expose their fields, arrays and strings their
      elements at canonical index keys ("0", "1", ...). Built-in prototype
      members (`length`, methods) are not part of this model. */
  function Prop(v: Option<Json>, key: string): Option<Json> {
    if Nullish(v) then None
    else match v.value
      case JObj(m) => Get(m, key)
      case JArr(items) =>
        var i := IndexOf(key);
        if 0 <= i < |items| then Some(items[i]) else None
      case JStr(s) =>
        var i := IndexOf(key);
        if 0 <= i < |s| then Some(JStr([s[i]])) else None
      case _ => None
  }

  /** The array index a property key denotes, or -1 when it denotes none
      (only canonical decimal numerals without leading zeros do). */
  function IndexOf(key: string): int {
    if |key| == 0 || (|key| > 1 && key[0] == '0') then -1
    else if IsDigits(key) then DigitsValue(key)
    else -1
  }

  /** `String(j)`: JavaScript's string coercion of a JSON value. Arrays join
      their elements with "," and print `null` elements as "". */
  function JsString(j: Json): string
    decreases j
  {
    match j
    case JNull => "null"
    case JBool(b) => if b then "true" else "false"
    case JNum(t) => t
    case JStr(s) => s
    case JObj(_) => "[object Object]"
    case JArr(items) =>
      Join(seq(|items|, i requires 0 <= i < |items| =>
        if items[i] == JNull then "" else JsString(items[i])), ",")
  }


  /** `{ error: msg }`, the error body every handler sends. */
  function ErrorBody(msg: string): Json {
    JObj(map["error" := JStr(msg)])
  }
}

=== FILE: phonenumbers.dfy ===
/** The phone-number list of the Phone Numbers page: importing a number
    from the form, removing one, and assigning an assistant to one. The
    list lives only in the page's state; the fresh id of an imported number
    (`crypto.randomUUID()`) is an input. */
module PhoneNumbers {

  import opened Js
  import opened Strings

  datatype Status = Active | Inactive

  datatype PhoneNumber = PhoneNumber(
    id: string,
    number: string,
    provider: string,
    labelText: string,
    assistantId: Option<string>,
    status: Status)

  /** The import form: the chosen provider, the typed number and label, and
      whether the form is open. */
  datatype Form = Form(provider: string, number: string, labelText: string, open: bool)

  datatype Page = Page(numbers: seq<PhoneNumber>, form: Form)

  predicate UniqueIds(ns: seq<PhoneNumber>) {
    forall i, j | 0 <= i < j < |ns| :: ns[i].id != ns[j].id
  }

  /** `addNumber()`: a number that is blank after trimming changes nothing
      (the page only warns); otherwise the trimmed number is appended with
      the chosen provider, the trimmed label or else the number as label,
      no assistant and status active, and the form is cleared and closed. */
  function AddNumber(p: Page, newId: string): (r: Page)
    ensures Trim(p.form.number) == "" ==> r == p
    ensures Trim(p.form.number) != "" ==>
              && |r.numbers| == |p.numbers| + 1
              && r.numbers[..|p.numbers|] == p.numbers
              && r.numbers[|p.numbers|] == PhoneNumber(newId, Trim(p.form.number), p.form.provider,
                   if Trim(p.form.labelText) != "" then Trim(p.form.labelText) else Trim(p.form.number), None, Active)
              && r.form == Form(p.form.provider, "", "", false)
  {
    var number := Trim(p.form.number);
    if number == "" then p
    else
      var labelText := if Trim(p.form.labelText) != "" then Trim(p.form.labelText) else number;
      var entry := PhoneNumber(newId, number, p.form.provider, labelText, None, Active);
      Page(p.numbers + [entry], p.form.(number := "", labelText := "", open := false))
  }

  /** An imported number is stored trimmed, with a non-blank label. */
  lemma AddedEntryTrimmed(p: Page, newId: string)
    requires Trim(p.form.number) != ""
    ensures var e := AddNumber(p, newId).numbers[|p.numbers|];
            Trim(e.number) == e.number && e.labelText != "" && Trim(e.labelText) == e.labelText
  {
    var n := Trim(p.form.number);
    var l := Trim(p.form.labelText);
    var e := AddNumber(p, newId).numbers[|p.numbers|];
    assert e.number == n && e.labelText == (if l != "" then l else n);
    TrimIdempotent(p.form.number);
    TrimIdempotent(p.form.labelText);
  }

  /** A fresh id keeps ids unique. */
  lemma {:induction false} AddKeepsUnique(p: Page, newId: string)
    requires UniqueIds(p.numbers)
    requires forall i | 0 <= i < |p.numbers| :: p.numbers[i].id != newId
    ensures UniqueIds(AddNumber(p, newId).numbers)
  {
    var r := AddNumber(p, newId).numbers;
    if Trim(p.form.number) != "" {
      forall i, j | 0 <= i < j < |r| ensures r[i].id != r[j].id {
        assert r[i] == p.numbers[i];
        if j < |p.numbers| {
          assert r[j] == p.numbers[j];
        }
      }
    }
  }

  /** Whitespace alone never adds a number. */
  lemma BlankNumberIgnored(p: Page, newId: string)
    requires AllSpace(p.form.number)
    ensures AddNumber(p, newId) == p
  {
    TrimEmptyIffBlank(p.form.number);
  }

  /** `removeNumber(id)`: keep, in order, every entry with another id. */
  function RemoveNumber(ns: seq<PhoneNumber>, id: string): (r: seq<PhoneNumber>)
    ensures forall n :: n in r <==> n in ns && n.id != id
    ensures |r| <= |ns|
    ensures (forall i | 0 <= i < |ns| :: ns[i].id != id) ==> r == ns
  {
    if |ns| == 0 then []
    else (if ns[0].id == id then [] else [ns[0]]) + RemoveNumber(ns[1..], id)
  }

  /** The filter works part by part: removing from a concatenation removes
      from each part and keeps the parts in order. */
  lemma {:induction false} RemoveNumberAppend(xs: seq<PhoneNumber>, ys: seq<PhoneNumber>, id: string)
    ensures RemoveNumber(xs + ys, id) == RemoveNumber(xs, id) + RemoveNumber(ys, id)
  {
    if |xs| == 0 {
      assert xs + ys == ys;
    } else {
      assert (xs + ys)[1..] == xs[1..] + ys;
      RemoveNumberAppend(xs[1..], ys, id);
    }
  }

  /** A single entry is dropped exactly when it has the id. Together with
      `RemoveNumberAppend` this fixes the result for every list: the kept
      entries, each as often as it occurs, in their original order. */
  lemma RemoveNumberOne(n: PhoneNumber, id: string)
    ensures RemoveNumber([n], id) == if n.id == id then [] else [n]
  {
    assert [n][1..] == [];
  }

  /** Removing keeps ids unique and removing the same id again changes
      nothing. */
  lemma {:induction false} RemoveNumberIdempotent(ns: seq<PhoneNumber>, id: string)
    ensures RemoveNumber(RemoveNumber(ns, id), id) == RemoveNumber(ns, id)
  {
    var r := RemoveNumber(ns, id);
    forall i | 0 <= i < |r| ensures r[i].id != id {
      assert r[i] in r;
    }
  }

  lemma {:induction false} RemoveKeepsUnique(ns: seq<PhoneNumber>, id: string)
    requires UniqueIds(ns)
    ensures UniqueIds(RemoveNumber(ns, id))
  {
    if |ns| > 0 {
      RemoveKeepsUnique(ns[1..], id);
      var rest := RemoveNumber(ns[1..], id);
      forall k | 0 <= k < |rest| ensures rest[k].id != ns[0].id {
        assert rest[k] in rest;
        var j :| 0 <= j < |ns[1..]| && ns[1..][j] == rest[k];
      }
    }
  }

  /** The select's value "none" stands for no assistant. */
  function SelectionValue(v: string): (r: string)
    ensures v == "none" ==> r == ""
    ensures v != "none" ==> r == v
  {
    if v == "none" then "" else v
  }

  /** `assistantId || null` */
  function AssistantRef(assistantId: string): (r: Option<string>)
    ensures r.None? <==> assistantId == ""
    ensures assistantId != "" ==> r == Some(assistantId)
  {
    if assistantId == "" then None else Some(assistantId)
  }

  /** `assignAssistant(numberId, assistantId)`: the `map` over the list,
      written as a loop. Every entry with that id gets the assistant (none
      for ""), and nothing else changes. */
  method AssignAssistant(ns: seq<PhoneNumber>, numberId: string, assistantId: string) returns (r: seq<PhoneNumber>)
    ensures |r| == |ns|
    ensures forall i | 0 <= i < |ns| ::
              r[i] == if ns[i].id == numberId then ns[i].(assistantId := AssistantRef(assistantId)) else ns[i]
  {
    r := [];
    var i := 0;
    while i < |ns|
      invariant 0 <= i <= |ns| && |r| == i
      invariant forall k | 0 <= k < i ::
                  r[k] == if ns[k].id == numberId then ns[k].(assistantId := AssistantRef(assistantId)) else ns[k]
    {
      var n := ns[i];
      r := r + [if n.id == numberId then n.(assistantId := AssistantRef(assistantId)) else n];
      i := i + 1;
    }
  }

  /** Choosing "None" in the select unassigns the number. */
  method ChooseNone(ns: seq<PhoneNumber>, numberId: string) returns (r: seq<PhoneNumber>)
    ensures |r| == |ns|
    ensures forall i | 0 <= i < |ns| ::
              (ns[i].id == numberId ==> r[i].assistantId.None? && r[i] == ns[i].(assistantId := None))
              && (ns[i].id != numberId ==> r[i] == ns[i])
  {
    r := AssignAssistant(ns, numberId, SelectionValue("none"));
  }
}

=== FILE: playground.dfy ===
/** The recording state machine of the voice playground: start a
    recording, collect audio chunks, stop and process, answer after a
    delay, cancel. The microphone, the recorder's events and the timer are
    inputs: each is an `Event` applied in the order it happens. */
module Playground {

  import opened Js

  datatype Status = Idle | Listening | Thinking | Speaking

  datatype Role = User | AssistantRole

  datatype Message = Message(role: Role, text: string)

  /** The recorder held by the component: none yet, recording, or stopped. */
  datatype Recorder = NoRecorder | Recording | Stopped

  datatype State = State(status: Status, messages: seq<Message>, recorder: Recorder, chunks: seq<nat>)

  const Initial := State(Idle, [], NoRecorder, [])

  /** The smallest recording, in bytes, that is processed. */
  const MinAudioBytes := 100

  const RecordedText := "Voice message recorded"

  /** `start()`: without an assistant, or when the microphone is refused,
      nothing changes; otherwise a new recorder starts with no chunks and
      the status is listening. */
  function Start(s: State, hasAssistant: bool, micGranted: bool): (r: State)
    ensures !hasAssistant || !micGranted ==> r == s
    ensures hasAssistant && micGranted ==> r == s.(status := Listening, recorder := Recording, chunks := [])
  {
    if !hasAssistant || !micGranted then s
    else s.(status := Listening, recorder := Recording, chunks := [])
  }

  /** `ondataavailable`: a non-empty chunk is kept. */
  function DataAvailable(s: State, size: nat): (r: State)
    ensures size > 0 ==> r.chunks == s.chunks + [size]
    ensures size == 0 ==> r == s
    ensures r.status == s.status && r.messages == s.messages
  {
    if size > 0 then s.(chunks := s.chunks + [size]) else s
  }

  /** The size of the blob made of the chunks. */
  function Total(chunks: seq<nat>): nat {
    if |chunks| == 0 then 0 else Total(chunks[..|chunks| - 1]) + chunks[|chunks| - 1]
  }

  /** `stop()` followed by the recorder's last `ondataavailable` (of size
      `last`) and its `onstop`: with no active recorder only go idle; a
      recording under 100 bytes goes idle with no message; otherwise
      thinking, with the user's message appended. */
  function Stop(s: State, last: nat): (r: State)
    ensures s.recorder != Recording ==> r == s.(status := Idle)
    ensures s.recorder == Recording ==>
              && r.recorder == Stopped
              && r.chunks == DataAvailable(s, last).chunks
              && (Total(r.chunks) < MinAudioBytes ==> r.status == Idle && r.messages == s.messages)
              && (Total(r.chunks) >= MinAudioBytes ==>
                    r.status == Thinking && r.messages == s.messages + [Message(User, RecordedText)])
  {
    if s.recorder != Recording then s.(status := Idle)
    else
      var t := DataAvailable(s, last).(recorder := Stopped);
      if Total(t.chunks) < MinAudioBytes then t.(status := Idle)
      else t.(status := Thinking, messages := t.messages + [Message(User, RecordedText)])
  }

  const ResponseHead := "Hi! I'm "
  const ResponseTail := ". I received your voice message. The full voice pipeline (STT → LLM → TTS) requires backend functions to be configured. For now, the assistant builder is ready for you to configure all settings!"

  /** The simulated answer naming the assistant (`name ?? "your
      assistant"`; an empty name is kept). */
  function ResponseText(name: Option<string>): (t: string)
    ensures var n := if name.None? then "your assistant" else name.value;
            |t| == |ResponseHead| + |n| + |ResponseTail| && t[|ResponseHead|..|ResponseHead| + |n|] == n
  {
    var n := if name.None? then "your assistant" else name.value;
    var t := ResponseHead + n + ResponseTail;
    assert t[|ResponseHead|..|ResponseHead| + |n|] == n;
    t
  }

  /** The timer 1.5 s after a processed recording: the assistant's message
      is appended and the status goes idle. It fires whatever happened in
      between. */
  function Respond(s: State, name: Option<string>): (r: State)
    ensures r.status == Idle && r.messages == s.messages + [Message(AssistantRole, ResponseText(name))]
    ensures r.recorder == s.recorder && r.chunks == s.chunks
  {
    s.(status := Idle, messages := s.messages + [Message(AssistantRole, ResponseText(name))])
  }

  /** `cancel()`: stop an active recorder (its `onstop` is not set, so
      nothing is processed) and go idle. */
  function Cancel(s: State): (r: State)
    ensures r.status == Idle && r.messages == s.messages && r.chunks == s.chunks
    ensures r.recorder == if s.recorder == Recording then Stopped else s.recorder
  {
    s.(status := Idle, recorder := if s.recorder == Recording then Stopped else s.recorder)
  }

  /** `messages.slice(-4)`: the last four messages. */
  function Transcript(messages: seq<Message>): (t: seq<Message>)
    ensures |t| == if |messages| < 4 then |messages| else 4
    ensures t == messages[|messages| - |t|..]
  {
    if |messages| <= 4 then messages else messages[|messages| - 4..]
  }

  datatype Event =
    | StartPressed(hasAssistant: bool, micGranted: bool)
    | Chunk(size: nat)
    | StopPressed(last: nat)
    | TimerFired(name: Option<string>)
    | CancelPressed

  function Step(s: State, e: Event): State {
    match e
    case StartPressed(a, m) => Start(s, a, m)
    case Chunk(n) => DataAvailable(s, n)
    case StopPressed(last) => Stop(s, last)
    case TimerFired(name) => Respond(s, name)
    case CancelPressed => Cancel(s)
  }

  /** The state after a sequence of events. */
  function Run(s: State, events: seq<Event>): (r: State)
    decreases |events|
    ensures s.status != Speaking ==> r.status != Speaking
    ensures |s.messages| <= |r.messages| && r.messages[..|s.messages|] == s.messages
  {
    if |events| == 0 then s
    else
      var r := Run(Step(s, events[0]), events[1..]);
      assert r.messages[..|s.messages|] == Step(s, events[0]).messages[..|s.messages|];
      r
  }

  /** Every event appends at most one message and never sets `speaking`. */
  lemma StepLaws(s: State, e: Event)
    ensures var r := Step(s, e);
            && (s.status != Speaking ==> r.status != Speaking)
            && (|r.messages| == |s.messages| || |r.messages| == |s.messages| + 1)
            && r.messages[..|s.messages|] == s.messages
  {
  }

  /** A recording of at least 100 bytes followed by the timer leaves the
      user's message and then the assistant's at the end of the log, and
      ends idle. */
  lemma {:induction false} RecordAndAnswer(s: State, last: nat, name: Option<string>)
    requires s.recorder == Recording
    requires Total(s.chunks + [last]) >= MinAudioBytes
    ensures var r := Respond(Stop(s, last), name);
            && r.status == Idle
            && r.messages == s.messages + [Message(User, RecordedText), Message(AssistantRole, ResponseText(name))]
  {
    assert (s.chunks + [last])[..|s.chunks|] == s.chunks;
    if last == 0 {
      assert DataAvailable(s, last).chunks == s.chunks;
    } else {
      assert DataAvailable(s, last).chunks == s.chunks + [last];
    }
  }
}

=== FILE: rebrand.dfy ===
/** The commit callback of the history rewrite in `rebrand_repo.py`: it
    renames the bot authors and committers and rewrites three fixed phrases
    in commit messages. Names and messages are bytes; UTF-8 decoding and
    encoding are supplied as a `Utf8` pair. */
module Rebrand {

  import opened Js
  import opened Strings
  import Crypto

  type Bytes = seq<Crypto.byte>

  datatype Commit = Commit(
    authorName: Bytes,
    authorEmail: Bytes,
    committerName: Bytes,
    committerEmail: Bytes,
    message: Bytes)

  /** `bytes.decode('utf-8')` (`None` when it raises) and
      `str.encode('utf-8')`. */
  datatype Utf8 = Utf8(decode: Bytes -> Option<string>, encode: string -> Bytes)

  /** The laws of UTF-8 the callback's behaviour rests on: decoding is
      undone by encoding, and encoded text decodes back. */
  ghost predicate Faithful(u: Utf8) {
    && (forall b :: u.decode(b).Some? ==> u.encode(u.decode(b).value) == b)
    && (forall s :: u.decode(u.encode(s)) == Some(s))
  }

  /** `b"Lovable"`, `b"gpt-engineer-app[bot]"`: the bot names renamed. */
  const Lovable: Bytes := [0x4c, 0x6f, 0x76, 0x61, 0x62, 0x6c, 0x65]
  const GptEngineer: Bytes :=
    [0x67, 0x70, 0x74, 0x2d, 0x65, 0x6e, 0x67, 0x69, 0x6e, 0x65, 0x65, 0x72, 0x2d, 0x61, 0x70, 0x70, 0x5b, 0x62, 0x6f, 0x74, 0x5d]

  /** `b"Antigravity"`, `b"noreply@antigravity.dev"`: the identity they
      get. */
  const NewName: Bytes := [0x41, 0x6e, 0x74, 0x69, 0x67, 0x72, 0x61, 0x76, 0x69, 0x74, 0x79]
  const NewEmail: Bytes :=
    [0x6e, 0x6f, 0x72, 0x65, 0x70, 0x6c, 0x79, 0x40, 0x61, 0x6e, 0x74, 0x69, 0x67, 0x72, 0x61, 0x76, 0x69, 0x74, 0x79, 0x2e, 0x64, 0x65, 0x76]

  /** Whether a name belongs to one of the bots being renamed. */
  predicate IsBot(name: Bytes) {
    name == Lovable || name == GptEngineer
  }

  /** One identity (name, email) under the rename rule. */
  function Rename(name: Bytes, email: Bytes): (r: (Bytes, Bytes))
    ensures IsBot(name) ==> r == (NewName, NewEmail)
    ensures !IsBot(name) ==> r == (name, email)
  {
    if IsBot(name) then (NewName, NewEmail) else (name, email)
  }

  /** A renamed identity is left alone by a second pass. */
  lemma RenameIdempotent(name: Bytes, email: Bytes)
    ensures Rename(Rename(name, email).0, Rename(name, email).1) == Rename(name, email)
  {
    assert |NewName| != |Lovable| && |NewName| != |GptEngineer|;
  }

  /** The three message rewrites, applied in this order. */
  const Rewrites: seq<(string, string)> := [
    ("Lovable update", "Antigravity update"),
    ("Remove Lovable branding", "Remove old branding"),
    ("template: new_style_vite_react_shadcn_ts_testing_2026-01-08", "Initial project setup")]

  /** The message rewrite: each of the three `str.replace` calls, in
      order, on the previous one's result. */
  function RewriteMessage(msg: string): string {
    var m1 := Replace(msg, Rewrites[0].0, Rewrites[0].1);
    var m2 := Replace(m1, Rewrites[1].0, Rewrites[1].1);
    Replace(m2, Rewrites[2].0, Rewrites[2].1)
  }

  /** `callback(commit, metadata)` */
  function Callback(u: Utf8, c: Commit): (r: Commit)
    ensures (r.authorName, r.authorEmail) == Rename(c.authorName, c.authorEmail)
    ensures (r.committerName, r.committerEmail) == Rename(c.committerName, c.committerEmail)
    ensures u.decode(c.message).None? ==> r.message == c.message
    ensures u.decode(c.message).Some? ==> r.message == u.encode(RewriteMessage(u.decode(c.message).value))
  {
    var (an, ae) := Rename(c.authorName, c.authorEmail);
    var (cn, ce) := Rename(c.committerName, c.committerEmail);
    var message := match u.decode(c.message)
      case None => c.message
      case Some(msg) => u.encode(RewriteMessage(msg));
    Commit(an, ae, cn, ce, message)
  }

  /** The identities are rewritten independently of the message, and the
      message independently of the identities. */
  lemma Independent(u: Utf8, c: Commit, d: Commit)
    ensures c.authorName == d.authorName && c.authorEmail == d.authorEmail ==>
              Callback(u, c).authorName == Callback(u, d).authorName
              && Callback(u, c).authorEmail == Callback(u, d).authorEmail
    ensures c.committerName == d.committerName && c.committerEmail == d.committerEmail ==>
              Callback(u, c).committerName == Callback(u, d).committerName
              && Callback(u, c).committerEmail == Callback(u, d).committerEmail
    ensures c.message == d.message ==> Callback(u, c).message == Callback(u, d).message
  {
  }

  /** A message that mentions none of the three phrases is kept byte for
      byte. */
  lemma {:induction false} UntouchedMessage(u: Utf8, c: Commit)
    requires Faithful(u)
    requires u.decode(c.message).Some?
    requires forall i | 0 <= i < |Rewrites| :: !Contains(u.decode(c.message).value, Rewrites[i].0)
    ensures Callback(u, c).message == c.message
  {
    var m := u.decode(c.message).value;
    ReplaceAbsent(m, Rewrites[0].0, Rewrites[0].1);
    ReplaceAbsent(m, Rewrites[1].0, Rewrites[1].1);
    ReplaceAbsent(m, Rewrites[2].0, Rewrites[2].1);
    assert RewriteMessage(m) == m;
  }

  /** A message whose only text is the bot's update phrase has it
      rewritten. */
  lemma UpdatePhraseRewritten()
    ensures RewriteMessage(Rewrites[0].0) == Rewrites[0].1
  {
    ReplaceWhole(Rewrites[0].0, Rewrites[0].1);
    ReplaceAbsent(Rewrites[0].1, Rewrites[1].0, Rewrites[1].1);
    ReplaceAbsent(Rewrites[0].1, Rewrites[2].0, Rewrites[2].1);
  }

  /** The branding phrase passes the first rewrite untouched and is then
      rewritten by the second. */
  lemma BrandingPhraseRewritten()
    ensures RewriteMessage(Rewrites[1].0) == Rewrites[1].1
  {
    var m, p := Rewrites[1].0, Rewrites[0].0;
    assert 'u' !in m;
    forall i | 0 <= i <= |m| - |p| ensures !OccursAt(m, p, i) {
      assert m[i..i + |p|][8] == m[i + 8] != p[8];
    }
    ReplaceAbsent(m, p, Rewrites[0].1);
    ReplaceWhole(Rewrites[1].0, Rewrites[1].1);
    ReplaceAbsent(Rewrites[1].1, Rewrites[2].0, Rewrites[2].1);
  }

  /** Replacing a pattern in the pattern itself gives the replacement. */
  lemma ReplaceWhole(pat: string, rep: string)
    requires |pat| > 0
    ensures Replace(pat, pat, rep) == rep
  {
    assert pat[..|pat|] == pat;
    var rest := pat[|pat|..];
    assert "" + rest == "";
    assert SplitFrom(rest, pat, "") == [""];
    assert Split(pat, pat) == ["", ""];
    assert Join(["", ""], rep) == "" + rep + "";
    assert "" + rep + "" == rep;
  }
}

=== FILE: restapi.dfy ===
/** The request helper of `src/lib/api.ts`, used by the auth context: it
    reads its token from `localStorage` under the key "token" and maps a
    response to a parsed body or an `ApiError`. */
module RestApi {

  import opened Js
  import opened Browser
  import ApiClient

  const TokenKey := "token"

  /** The request headers: the JSON content type, then the Bearer header
      when a token is stored, then the caller's headers, each overriding
      the ones before. */
  function Headers(token: Option<string>, caller: ApiClient.Headers): (h: ApiClient.Headers)
    ensures forall k | k in caller :: k in h && h[k] == caller[k]
    ensures "Authorization" !in caller ==>
              ("Authorization" in h <==> TruthyStr(token))
              && (TruthyStr(token) ==> h["Authorization"] == "Bearer " + token.value)
    ensures "Content-Type" in h
    ensures "Content-Type" !in caller ==> h["Content-Type"] == "application/json"
    ensures h.Keys == caller.Keys + {"Content-Type"} + (if TruthyStr(token) then {"Authorization"} else {})
  {
    var auth: map<string, string> := if TruthyStr(token) then map["Authorization" := "Bearer " + token.value] else map[];
    map["Content-Type" := "application/json"] + auth + caller
  }

  /** What `apiFetch` resolves to or rejects with. */
  datatype Result =
    | Resolved(data: Json)
    | ApiError(message: string, status: nat)
    | TypeError
    | SyntaxError

  const DefaultError := "API request failed"

  /** The response mapping: a non-OK response reads its body (an unparseable
      one counts as `{}`) and throws `ApiError` with the body's `error` or
      the default message; 204 is an empty object; any other OK response is
      its parsed body. A `null` error body makes `errorData.error` a
      TypeError. */
  function Settle(res: ApiClient.Response): (r: Result)
    ensures !ApiClient.Ok(res.status) && res.body != Some(JNull) ==>
              r.ApiError? && r.status == res.status
    ensures !ApiClient.Ok(res.status) && TruthyOpt(Prop(res.body, "error")) ==>
              r == ApiError(JsString(Prop(res.body, "error").value), res.status)
    ensures !ApiClient.Ok(res.status) && res.body != Some(JNull) && !TruthyOpt(Prop(res.body, "error")) ==>
              r == ApiError(DefaultError, res.status)
    ensures !ApiClient.Ok(res.status) && res.body == Some(JNull) ==> r == TypeError
    ensures res.status == 204 ==> r == Resolved(JObj(map[]))
    ensures ApiClient.Ok(res.status) && res.status != 204 ==>
              (r.Resolved? <==> res.body.Some?) && (res.body.None? ==> r == SyntaxError)
              && (res.body.Some? ==> r.data == res.body.value)
  {
    if !ApiClient.Ok(res.status) then
      var errorData := if res.body.None? then JObj(map[]) else res.body.value;
      if errorData == JNull then TypeError
      else ApiError(JsString(Or(Prop(Some(errorData), "error"), JStr(DefaultError))), res.status)
    else if res.status == 204 then Resolved(JObj(map[]))
    else match res.body
      case None => SyntaxError
      case Some(data) => Resolved(data)
  }

  /** Unlike the client of the supabase integration, this helper carries
      the server's error text through. */
  lemma ServerErrorCarried(msg: string, status: nat)
    requires !ApiClient.Ok(status) && msg != ""
    ensures Settle(ApiClient.Response(status, Some(ErrorBody(msg)))) == ApiError(msg, status)
    ensures Settle(ApiClient.Response(status, None)) == ApiError(DefaultError, status)
  {
  }

  /** `apiFetch(endpoint, { headers })`: the headers sent and the result. */
  datatype Exchange = Exchange(sent: ApiClient.Headers, result: Result)

  function Fetch(b: Storage, caller: ApiClient.Headers, res: ApiClient.Response): (e: Exchange)
    ensures "Authorization" !in caller ==>
              ("Authorization" in e.sent <==> TruthyStr(GetItem(b.local, TokenKey)))
    ensures e.result == Settle(res)
  {
    Exchange(Headers(GetItem(b.local, TokenKey), caller), Settle(res))
  }

  /** The two clients keep their tokens under different keys, so each one's
      token reads the same whatever the other stores or clears. */
  lemma {:induction false} TokensIndependent(b: Storage, t: string, remember: bool, c: ApiClient.Codec, u: Option<Json>)
    ensures GetItem(ApiClient.SetToken(b, Some(JStr(t)), remember).local, TokenKey) == GetItem(b.local, TokenKey)
    ensures GetItem(ApiClient.ClearToken(b).local, TokenKey) == GetItem(b.local, TokenKey)
    ensures GetItem(ApiClient.SetUser(c, b, u, remember).local, TokenKey) == GetItem(b.local, TokenKey)
    ensures ApiClient.GetToken(SetLocal(b, TokenKey, t)) == ApiClient.GetToken(b)
    ensures ApiClient.GetToken(RemoveLocal(b, TokenKey)) == ApiClient.GetToken(b)
  {
    OtherItemsUnaffected(b, ApiClient.TokenKey, t, remember, TokenKey);
    OtherItemsUnaffected(b, ApiClient.UserKey, ApiClient.StoredText(c, u), remember, TokenKey);
  }
}

=== FILE: strings.dfy ===
/** String operations the application relies on, with the semantics of
    JavaScript's and Python's built-ins for the cases the code uses:
    prefix tests, `split`/`join` on a non-empty separator, `replace` of
    every occurrence, `trim`, and decimal rendering of numbers. */
module Strings {

  predicate StartsWith(s: string, prefix: string) {
    |prefix| <= |s| && s[..|prefix|] == prefix
  }

  /** `pat` occurs in `s` at position `i`. */
  predicate OccursAt(s: string, pat: string, i: int) {
    0 <= i && i + |pat| <= |s| && s[i..i + |pat|] == pat
  }

  predicate Contains(s: string, pat: string) {
    exists i | 0 <= i <= |s| - |pat| :: OccursAt(s, pat, i)
  }

  // ---------------------------------------------------------------------
  // split / join / replace

  /** `s.split(sep)` for a non-empty separator: the pieces between the
      occurrences found by a left-to-right scan (JavaScript and Python
      agree on this). */
  function Split(s: string, sep: string): (parts: seq<string>)
    requires |sep| > 0
  {
    SplitFrom(s, sep, "")
  }

  /** Scanning `s` with `cur` holding the piece read so far. */
  function SplitFrom(s: string, sep: string, cur: string): (parts: seq<string>)
    requires |sep| > 0
    ensures |parts| >= 1
    decreases |s|
  {
    if |s| < |sep| then [cur + s]
    else if s[..|sep|] == sep then [cur] + SplitFrom(s[|sep|..], sep, "")
    else SplitFrom(s[1..], sep, cur + [s[0]])
  }

  /** `parts.join(sep)` */
  function Join(parts: seq<string>, sep: string): string {
    if |parts| == 0 then ""
    else if |parts| == 1 then parts[0]
    else parts[0] + sep + Join(parts[1..], sep)
  }

  /** `s.replace(pat, rep)` in Python (every occurrence, left to right,
      not overlapping); equal to `rep.join(s.split(pat))`. */
  function Replace(s: string, pat: string, rep: string): string
    requires |pat| > 0
  {
    Join(Split(s, pat), rep)
  }

  /** Joining the pieces of a split with the separator gives back the
      string. */
  lemma {:induction false} SplitFromJoin(s: string, sep: string, cur: string)
    requires |sep| > 0
    ensures Join(SplitFrom(s, sep, cur), sep) == cur + s
    decreases |s|
  {
    if |s| < |sep| {
    } else if s[..|sep|] == sep {
      var rest := SplitFrom(s[|sep|..], sep, "");
      SplitFromJoin(s[|sep|..], sep, "");
      assert Join(rest, sep) == s[|sep|..];
      assert s == sep + s[|sep|..];
      assert ([cur] + rest)[1..] == rest;
    } else {
      SplitFromJoin(s[1..], sep, cur + [s[0]]);
      assert cur + [s[0]] + s[1..] == cur + s;
    }
  }

  lemma SplitJoin(s: string, sep: string)
    requires |sep| > 0
    ensures Join(Split(s, sep), sep) == s
  {
    SplitFromJoin(s, sep, "");
  }

  /** No occurrence of the separator starts inside `cur` when it is read in
      front of `s`. */
  predicate NoMatchBefore(cur: string, s: string, sep: string) {
    forall i | 0 <= i < |cur| :: !OccursAt(cur + s, sep, i)
  }

  lemma {:induction false} SplitFromPiecesFree(s: string, sep: string, cur: string)
    requires |sep| > 0
    requires NoMatchBefore(cur, s, sep)
    ensures forall k | 0 <= k < |SplitFrom(s, sep, cur)| :: !Contains(SplitFrom(s, sep, cur)[k], sep)
    decreases |s|
  {
    var parts := SplitFrom(s, sep, cur);
    if |s| < |sep| {
    } else if s[..|sep|] == sep {
      var rest := SplitFrom(s[|sep|..], sep, "");
      SplitFromPiecesFree(s[|sep|..], sep, "");
      forall i | OccursAt(cur, sep, i) ensures false {
        assert (cur + s)[i..i + |sep|] == cur[i..i + |sep|];
        assert OccursAt(cur + s, sep, i);
      }
      forall k | 0 <= k < |parts| ensures !Contains(parts[k], sep) {
        if k > 0 {
          assert parts[k] == rest[k - 1];
        }
      }
    } else {
      var cur' := cur + [s[0]];
      assert cur' + s[1..] == cur + s;
      forall i | 0 <= i < |cur'| ensures !OccursAt(cur' + s[1..], sep, i) {
        if i == |cur| {
          assert (cur + s)[i..i + |sep|] == s[..|sep|];
        }
      }
      SplitFromPiecesFree(s[1..], sep, cur');
    }
  }

  /** No piece of a split contains the separator: `Replace` rewrites every
      occurrence a left-to-right scan finds. */
  lemma SplitPiecesFree(s: string, sep: string)
    requires |sep| > 0
    ensures forall k | 0 <= k < |Split(s, sep)| :: !Contains(Split(s, sep)[k], sep)
  {
    SplitFromPiecesFree(s, sep, "");
  }

  lemma {:induction false} SplitFromAbsent(s: string, sep: string, cur: string)
    requires |sep| > 0
    requires !Contains(s, sep)
    ensures SplitFrom(s, sep, cur) == [cur + s]
    decreases |s|
  {
    if |s| < |sep| {
    } else {
      assert !OccursAt(s, sep, 0);
      forall i | OccursAt(s[1..], sep, i) ensures false {
        assert s[1..][i..i + |sep|] == s[i + 1..i + 1 + |sep|];
        assert OccursAt(s, sep, i + 1);
      }
      SplitFromAbsent(s[1..], sep, cur + [s[0]]);
      assert cur + [s[0]] + s[1..] == cur + s;
    }
  }

  /** A string without the pattern is left as it is. */
  lemma ReplaceAbsent(s: string, pat: string, rep: string)
    requires |pat| > 0
    requires !Contains(s, pat)
    ensures Replace(s, pat, rep) == s
  {
    SplitFromAbsent(s, pat, "");
  }

  // ---------------------------------------------------------------------
  // the first word after a prefix

  /** The longest prefix of `s` without the character `c`. */
  function Word(s: string, c: char): (w: string)
    ensures |w| <= |s| && w == s[..|w|]
    ensures c !in w
    ensures |w| == |s| || s[|w|] == c
  {
    if |s| == 0 || s[0] == c then ""
    else [s[0]] + Word(s[1..], c)
  }

  lemma {:induction false} SplitFromFirstPiece(s: string, c: char, cur: string)
    ensures SplitFrom(s, [c], cur)[0] == cur + Word(s, c)
    decreases |s|
  {
    if |s| < 1 {
    } else if s[..1] == [c] {
    } else {
      SplitFromFirstPiece(s[1..], c, cur + [s[0]]);
    }
  }

  lemma {:induction false} SplitFromAfterWord(w: string, c: char, rest: string, cur: string)
    requires c !in w
    ensures SplitFrom(w + [c] + rest, [c], cur) == [cur + w] + SplitFrom(rest, [c], "")
    decreases |w|
  {
    var s := w + [c] + rest;
    if |w| == 0 {
      assert s[..1] == [c];
      assert s[1..] == rest;
      assert cur + w == cur;
    } else {
      assert s[..1] != [c] by { assert s[0] == w[0]; }
      assert s[1..] == w[1..] + [c] + rest;
      SplitFromAfterWord(w[1..], c, rest, cur + [w[0]]);
      assert cur + [w[0]] + w[1..] == cur + w;
    }
  }

  /** `s.split(' ')[1]` for a string that starts with `prefix + " "` where
      `prefix` has no space: the word that follows the first space. */
  function SecondPiece(s: string, prefix: string): (t: string)
    requires StartsWith(s, prefix + " ") && ' ' !in prefix
    ensures |Split(s, " ")| >= 2 && t == Split(s, " ")[1]
    ensures var after := s[|prefix| + 1..];
            |t| <= |after| && t == after[..|t|] && ' ' !in t && (|t| == |after| || after[|t|] == ' ')
  {
    var after := s[|prefix| + 1..];
    assert s == prefix + [' '] + after;
    SplitFromAfterWord(prefix, ' ', after, "");
    SplitFromFirstPiece(after, ' ', "");
    Split(s, " ")[1]
  }

  // ---------------------------------------------------------------------
  // trim

  /** ECMAScript WhiteSpace and LineTerminator code points, the characters
      `String.prototype.trim` removes. */
  predicate IsJsSpace(c: char) {
    c == '\t' || c == '\n' || c == '\U{000B}' || c == '\U{000C}' || c == '\r' || c == ' '
    || c == '\U{00A0}' || c == '\U{1680}' || ('\U{2000}' <= c <= '\U{200A}')
    || c == '\U{2028}' || c == '\U{2029}' || c == '\U{202F}' || c == '\U{205F}'
    || c == '\U{3000}' || c == '\U{FEFF}'
  }

  predicate AllSpace(s: string) {
    forall i | 0 <= i < |s| :: IsJsSpace(s[i])
  }

  /** The characters of `s` in `[lo, hi)` are all white space. */
  predicate SpaceBetween(s: string, lo: int, hi: int)
    requires 0 <= lo <= hi <= |s|
  {
    forall k | lo <= k < hi :: IsJsSpace(s[k])
  }

  function TrimStart(s: string): (r: string)
    ensures |r| <= |s| && r == s[|s| - |r|..]
    ensures SpaceBetween(s, 0, |s| - |r|)
    ensures r == [] || !IsJsSpace(r[0])
  {
    if |s| > 0 && IsJsSpace(s[0]) then
      var r := TrimStart(s[1..]);
      assert forall k | 1 <= k < |s| - |r| :: s[k] == s[1..][k - 1];
      r
    else s
  }

  function TrimEnd(s: string): (r: string)
    ensures |r| <= |s| && r == s[..|r|]
    ensures SpaceBetween(s, |r|, |s|)
    ensures r == [] || !IsJsSpace(r[|r| - 1])
  {
    if |s| > 0 && IsJsSpace(s[|s| - 1]) then
      var r := TrimEnd(s[..|s| - 1]);
      assert forall k | |r| <= k < |s| - 1 :: s[k] == s[..|s| - 1][k];
      r
    else s
  }

  /** Where `s.trim()` cuts: white space before `lo` and from `hi` on, and
      no white space at either end of what lies between. */
  function TrimBounds(s: string): (b: (nat, nat))
    ensures b.0 <= b.1 <= |s|
    ensures SpaceBetween(s, 0, b.0) && SpaceBetween(s, b.1, |s|)
    ensures b.0 < b.1 ==> !IsJsSpace(s[b.0]) && !IsJsSpace(s[b.1 - 1])
  {
    var a := TrimStart(s);
    var r := TrimEnd(a);
    TrimSlice(s, a, r);
    (|s| - |a|, |s| - |a| + |r|)
  }

  lemma TrimSlice(s: string, a: string, r: string)
    requires |a| <= |s| && a == s[|s| - |a|..] && SpaceBetween(s, 0, |s| - |a|)
    requires |r| <= |a| && r == a[..|r|] && SpaceBetween(a, |r|, |a|)
    requires r == [] || (!IsJsSpace(r[0]) && !IsJsSpace(r[|r| - 1]))
    ensures r == s[|s| - |a|..|s| - |a| + |r|] && SpaceBetween(s, |s| - |a| + |r|, |s|)
    ensures r != [] ==> !IsJsSpace(s[|s| - |a|]) && !IsJsSpace(s[|s| - |a| + |r| - 1])
  {
    var i := |s| - |a|;
    assert forall k | i + |r| <= k < |s| :: s[k] == a[k - i];
    assert r != [] ==> s[i] == r[0] && s[i + |r| - 1] == r[|r| - 1];
  }

  /** `s.trim()`: `s` without its leading and trailing white space. */
  function Trim(s: string): (r: string)
    ensures r == s[TrimBounds(s).0..TrimBounds(s).1]
  {
    s[TrimBounds(s).0..TrimBounds(s).1]
  }

  /** Blank strings are exactly those that trim to the empty string. */
  lemma TrimEmptyIffBlank(s: string)
    ensures Trim(s) == "" <==> AllSpace(s)
  {
  }

  /** Trimming twice is trimming once. */
  lemma TrimIdempotent(s: string)
    ensures Trim(Trim(s)) == Trim(s)
  {
    var (lo, hi) := TrimBounds(s);
    var r := Trim(s);
    var (lo', hi') := TrimBounds(r);
    if r != [] {
      assert r[0] == s[lo] && r[|r| - 1] == s[hi - 1];
      assert !IsJsSpace(r[0]) && !IsJsSpace(r[|r| - 1]);
      assert lo' == 0 && hi' == |r|;
      assert r[0..|r|] == r;
    }
  }

  // ---------------------------------------------------------------------
  // decimal numerals

  predicate IsDigits(d: string) {
    forall i | 0 <= i < |d| :: '0' <= d[i] <= '9'
  }

  function DigitValue(c: char): nat
    requires '0' <= c <= '9'
  {
    c as int - '0' as int
  }

  /** The number a string of decimal digits denotes. */
  function DigitsValue(d: string): nat
    requires IsDigits(d)
  {
    if |d| == 0 then 0
    else DigitsValue(d[..|d| - 1]) * 10 + DigitValue(d[|d| - 1])
  }

  function DigitChar(k: nat): (c: char)
    requires k < 10
    ensures '0' <= c <= '9' && DigitValue(c) == k
  {
    ('0' as int + k) as char
  }

  /** `String(n)` for a natural number: its canonical decimal numeral. */
  function NatToString(n: nat): (d: string)
    ensures |d| >= 1 && IsDigits(d)
    ensures |d| > 1 ==> d[0] != '0'
    ensures DigitsValue(d) == n
  {
    if n < 10 then [DigitChar(n)]
    else
      var d := NatToString(n / 10) + [DigitChar(n % 10)];
      assert d[..|d| - 1] == NatToString(n / 10);
      d
  }
}

=== FILE: studio.dfy ===
/** The Voice Agent Studio page: the list of the user's assistants, the
    active one, its editable draft, and the payloads sent to the database
    when an assistant is created or saved. Database answers are inputs;
    toasts and rendering are not modelled. */
module Studio {

  import opened Js
  import opened Strings

  /** A row of `voice_assistants`: its id and its other columns. */
  datatype Assistant = Assistant(id: string, columns: map<string, Json>)

  /** The whole row as `{ ...row }` spreads it. */
  function RowObject(a: Assistant): map<string, Json> {
    a.columns["id" := JStr(a.id)]
  }

  datatype State = State(
    userId: Option<string>,
    assistants: seq<Assistant>,
    activeId: Option<string>,
    draft: map<string, Json>)

  const DefaultPrompt :=
    "You are a friendly voice assistant. Keep responses short, ask clarifying questions, and be helpful. If you don't know, say so."

  /** The editable fields a draft and a save payload carry. */
  const Editable: set<string> := {"name", "description", "system_prompt", "language", "conversation_mode",
                                   "temperature", "voice_provider", "voice_id", "voice_speed", "tools"}

  /** `defaultAssistantDraft()` */
  function DefaultDraft(): (d: map<string, Json>)
    ensures d.Keys == Editable
    ensures d["name"] == JStr("New assistant") && d["language"] == JStr("en")
    ensures d["conversation_mode"] == JStr("friendly") && d["voice_provider"] == JStr("elevenlabs")
    ensures d["temperature"] == JNum("0.7") && d["voice_speed"] == JNum("1") && d["voice_id"] == JNull
    ensures d["description"] == JStr("") && d["system_prompt"] == JStr(DefaultPrompt)
    ensures d["tools"] == JObj(map["agentId" := JStr("")])
  {
    map[
      "name" := JStr("New assistant"),
      "description" := JStr(""),
      "system_prompt" := JStr(DefaultPrompt),
      "language" := JStr("en"),
      "conversation_mode" := JStr("friendly"),
      "temperature" := JNum("0.7"),
      "voice_provider" := JStr("elevenlabs"),
      "voice_id" := JNull,
      "voice_speed" := JNum("1"),
      "tools" := JObj(map["agentId" := JStr("")])]
  }

  const Initial := State(None, [], None, DefaultDraft())

  /** `assistants.find((a) => a.id === activeId) ?? null`: the first row
      with the active id. */
  function ActiveAssistant(rows: seq<Assistant>, activeId: Option<string>): (a: Option<Assistant>)
    ensures a.Some? <==> exists i | 0 <= i < |rows| :: Some(rows[i].id) == activeId
    ensures a.Some? ==> a.value in rows && Some(a.value.id) == activeId
    ensures forall i | 0 <= i < |rows| && Some(rows[i].id) == activeId :: a.Some? && a == Some(FirstWithId(rows, rows[i].id))
  {
    if |rows| == 0 then None
    else if Some(rows[0].id) == activeId then Some(rows[0])
    else ActiveAssistant(rows[1..], activeId)
  }

  /** The first row with a given id, which exists. */
  function FirstWithId(rows: seq<Assistant>, id: string): (a: Assistant)
    requires exists i | 0 <= i < |rows| :: rows[i].id == id
    ensures a in rows && a.id == id
    ensures forall i | 0 <= i < |rows| && rows[i].id == id :: (forall k | 0 <= k < i :: rows[k].id != id) ==> rows[i] == a
  {
    if rows[0].id == id then rows[0]
    else
      assert exists i | 0 <= i < |rows[1..]| :: rows[1..][i].id == id by {
        var i :| 0 <= i < |rows| && rows[i].id == id;
        assert rows[1..][i - 1] == rows[i];
      }
      FirstWithId(rows[1..], id)
  }

  /** The effect that copies the active assistant into the draft, with
      `tools ?? { agentId: "" }`. */
  function SyncDraft(s: State): (r: State)
    ensures ActiveAssistant(s.assistants, s.activeId).None? ==> r == s
    ensures ActiveAssistant(s.assistants, s.activeId).Some? ==>
              var a := ActiveAssistant(s.assistants, s.activeId).value;
              && r == s.(draft := r.draft)
              && r.draft.Keys == RowObject(a).Keys + {"tools"}
              && (forall k | k in RowObject(a) && k != "tools" :: k in r.draft && r.draft[k] == RowObject(a)[k])
              && "tools" in r.draft
              && r.draft["tools"] == Coalesce(Get(a.columns, "tools"), JObj(map["agentId" := JStr("")]))
  {
    match ActiveAssistant(s.assistants, s.activeId)
    case None => s
    case Some(a) =>
      s.(draft := RowObject(a)["tools" := Coalesce(Get(a.columns, "tools"), JObj(map["agentId" := JStr("")]))])
  }

  /** What the database answers to the select of `load`: rows (`data ??
      []`, already in the order it returns them) or an error. */
  datatype Loaded = Rows(data: Option<seq<Assistant>>) | LoadError

  /** `load(uid)` */
  function Load(s: State, answer: Loaded): (r: State)
    ensures answer.LoadError? ==> r == s
    ensures answer.Rows? ==>
              && r.assistants == (if answer.data.None? then [] else answer.data.value)
              && r.userId == s.userId && r.draft == s.draft
              && (TruthyStr(s.activeId) || |r.assistants| == 0 ==> r.activeId == s.activeId)
              && (!TruthyStr(s.activeId) && |r.assistants| > 0 ==> r.activeId == Some(r.assistants[0].id))
  {
    match answer
    case LoadError => s
    case Rows(data) =>
      var rows := if data.None? then [] else data.value;
      var active := if !TruthyStr(s.activeId) && |rows| > 0 then Some(rows[0].id) else s.activeId;
      s.(assistants := rows, activeId := active)
  }

  /** Loading the same rows again changes nothing more. */
  lemma LoadIdempotent(s: State, answer: Loaded)
    requires answer.Rows?
    ensures Load(Load(s, answer), answer) == Load(s, answer)
  {
  }

  /** What the database answers to the insert of `createAssistant`. */
  datatype Inserted = Row(row: Assistant) | NoRow | InsertError

  /** The payload of `createAssistant`: the owner, the default draft, and a
      name numbered after the current count. */
  function CreatePayload(userId: string, count: nat): (p: map<string, Json>)
    ensures p.Keys == Editable + {"user_id"}
    ensures p["user_id"] == JStr(userId)
    ensures p["name"] == JStr("Assistant " + NatToString(count + 1))
    ensures forall k | k in Editable && k != "name" :: p[k] == DefaultDraft()[k]
  {
    map["user_id" := JStr(userId)] + DefaultDraft() + map["name" := JStr("Assistant " + NatToString(count + 1))]
  }

  /** `createAssistant()`: the new state and the payload inserted, if any. */
  function CreateAssistant(s: State, answer: Inserted): (r: (State, Option<map<string, Json>>))
    ensures !TruthyStr(s.userId) ==> r == (s, None)
    ensures TruthyStr(s.userId) ==> r.1 == Some(CreatePayload(s.userId.value, |s.assistants|))
    ensures TruthyStr(s.userId) && answer.Row? ==>
              r.0 == s.(assistants := [answer.row] + s.assistants, activeId := Some(answer.row.id))
    ensures !answer.Row? ==> r.0 == s
  {
    if !TruthyStr(s.userId) then (s, None)
    else
      var payload := CreatePayload(s.userId.value, |s.assistants|);
      match answer
      case Row(row) => (s.(assistants := [row] + s.assistants, activeId := Some(row.id)), Some(payload))
      case _ => (s, Some(payload))
  }

  /** A created assistant becomes the active one, whatever ids the list
      already held. */
  lemma CreatedIsActive(s: State, row: Assistant)
    requires TruthyStr(s.userId)
    ensures var s1 := CreateAssistant(s, Row(row)).0;
            ActiveAssistant(s1.assistants, s1.activeId) == Some(row)
  {
  }

  /** The fallback `saveAssistant` writes for each editable field the
      draft lacks or holds as `null`. */
  function SaveFallbacks(): (f: map<string, Json>)
    ensures f.Keys == Editable
    ensures f["name"] == JStr("Untitled") && f["system_prompt"] == JStr("") && f["language"] == JStr("en")
    ensures f["conversation_mode"] == JStr("neutral") && f["voice_provider"] == JStr("elevenlabs")
    ensures f["tools"] == JObj(map[]) && f["temperature"] == JNum("0.7") && f["voice_speed"] == JNum("1")
    ensures f["description"] == JNull && f["voice_id"] == JNull
  {
    map[
      "name" := JStr("Untitled"),
      "description" := JNull,
      "system_prompt" := JStr(""),
      "language" := JStr("en"),
      "conversation_mode" := JStr("neutral"),
      "temperature" := JNum("0.7"),
      "voice_provider" := JStr("elevenlabs"),
      "voice_id" := JNull,
      "voice_speed" := JNum("1"),
      "tools" := JObj(map[])]
  }

  /** The payload of `saveAssistant`: each editable field of the draft,
      `draft.field ?? fallback`. `temperature` and `voice_speed` are the
      values handed to `Number()`. */
  function SavePayload(draft: map<string, Json>): (p: map<string, Json>)
    ensures p.Keys == Editable
    ensures forall k | k in Editable && k in draft && draft[k] != JNull :: p[k] == draft[k]
    ensures forall k | k in Editable && (k !in draft || draft[k] == JNull) :: p[k] == SaveFallbacks()[k]
  {
    var fallbacks := SaveFallbacks();
    map k | k in Editable :: Coalesce(Get(draft, k), fallbacks[k])
  }

  /** `saveAssistant()`: the update sent, for the active id, if any. */
  function SaveAssistant(s: State): (u: Option<(string, map<string, Json>)>)
    ensures u.None? <==> !TruthyStr(s.activeId)
    ensures u.Some? ==> u.value == (s.activeId.value, SavePayload(s.draft))
  {
    if !TruthyStr(s.activeId) then None else Some((s.activeId.value, SavePayload(s.draft)))
  }

  /** Saving an untouched draft writes back the active row's own values for
      every editable column it holds with a non-null value. */
  lemma SaveUntouchedDraft(s: State)
    requires TruthyStr(s.activeId)
    requires ActiveAssistant(s.assistants, s.activeId).Some?
    ensures var a := ActiveAssistant(s.assistants, s.activeId).value;
            var u := SaveAssistant(SyncDraft(s));
            && u.Some? && u.value.0 == a.id
            && forall k | k in Editable && k in a.columns && a.columns[k] != JNull :: u.value.1[k] == a.columns[k]
  {
    var a := ActiveAssistant(s.assistants, s.activeId).value;
    var d := SyncDraft(s).draft;
    forall k | k in Editable && k in a.columns && a.columns[k] != JNull
      ensures SavePayload(d)[k] == a.columns[k]
    {
      if k == "tools" {
        assert d["tools"] == a.columns["tools"];
      } else {
        assert RowObject(a)[k] == a.columns[k];
      }
    }
  }
}

=== FILE: voicechat.dfy ===
/** The Express route `POST /api/voice-chat`: validate, assemble the
    messages, answer with an echo when no OpenAI key is configured, and
    otherwise relay one completion request. The parsed request body is an
    object (the JSON body parser accepts objects and arrays; an array has
    none of the fields read here). */
module VoiceChat {

  import opened Js
  import opened Chat

  const DefaultPrompt := "You are a helpful voice assistant. Keep responses concise and conversational."
  const Model := "gpt-3.5-turbo"
  const Apology := "I'm sorry, I couldn't generate a response."

  /** `I heard you say: "<message>". (Configure ...)` */
  function Echo(userMessage: Json): string {
    "I heard you say: \"" + JsString(userMessage) + "\". (Configure OPENAI_API_KEY in .env for real AI responses)"
  }

  /** The answer and the completion request made, if any. */
  datatype Handled = Handled(reply: Reply, call: Option<Completion>)

  /** The route, with `OPENAI_API_KEY` and the gateway's answer as inputs. */
  function Handle(body: map<string, Json>, apiKey: Option<string>, gateway: Gateway): (h: Handled)
    ensures !TruthyOpt(Get(body, "userMessage")) ==> h == Handled(Failure(400, Text(UserMessageRequired)), None)
    ensures SpreadHistory(Get(body, "conversationHistory")).NotIterable? && TruthyOpt(Get(body, "userMessage")) ==>
              h == Handled(Failure(500, Runtime), None)
    ensures TruthyOpt(Get(body, "userMessage")) && SpreadHistory(Get(body, "conversationHistory")).Spread? ==>
              && (h.call.Some? <==> TruthyStr(apiKey))
              && (!TruthyStr(apiKey) ==> h == Handled(Answer(map["reply" := JStr(Echo(body["userMessage"]))]), None))
    ensures h.call.None? && h.reply.Answer? ==>
              !TruthyStr(apiKey) && h.reply.body == map["reply" := JStr(Echo(body["userMessage"]))]
    ensures h.call.Some? ==>
              && TruthyOpt(Get(body, "userMessage")) && TruthyStr(apiKey)
              && var history := SpreadHistory(Get(body, "conversationHistory"));
                 && history.Spread?
                 && h.call.value == Completion("Bearer " + apiKey.value, Model,
                      Assemble(Or(Get(body, "systemPrompt"), JStr(DefaultPrompt)), history.items, body["userMessage"]),
                      Temperature(Get(body, "temperature")), MaxTokens)
    ensures h.call.Some? && !Ok(gateway.status) ==>
              h.reply == Failure(500, Text(GatewayError("AI API error", gateway)))
    ensures h.call.Some? && Ok(gateway.status) && gateway.json.Some? && gateway.json.value != JNull ==>
              h.reply == Answer(map["reply" := ReplyOf(gateway.json.value, Apology).value])
    ensures h.reply.Failure? ==> h.reply.status in {400, 500}
  {
    var userMessage := Get(body, "userMessage");
    if !TruthyOpt(userMessage) then Handled(Failure(400, Text(UserMessageRequired)), None)
    else match SpreadHistory(Get(body, "conversationHistory"))
      case NotIterable => Handled(Failure(500, Runtime), None)
      case Spread(history) =>
        var messages := Assemble(Or(Get(body, "systemPrompt"), JStr(DefaultPrompt)), history, userMessage.value);
        if !TruthyStr(apiKey) then Handled(Answer(map["reply" := JStr(Echo(userMessage.value))]), None)
        else
          var call := Completion("Bearer " + apiKey.value, Model, messages, Temperature(Get(body, "temperature")), MaxTokens);
          if !Ok(gateway.status) then Handled(Failure(500, Text(GatewayError("AI API error", gateway))), Some(call))
          else match gateway.json
            case None => Handled(Failure(500, Runtime), Some(call))
            case Some(data) =>
              match ReplyOf(data, Apology)
              case None => Handled(Failure(500, Runtime), Some(call))
              case Some(reply) => Handled(Answer(map["reply" := reply]), Some(call))
  }

  /** The message list sent keeps the history in order between the system
      prompt and the user's message, and a temperature of 0 is sent as
      0. */
  lemma SentMessages(body: map<string, Json>, apiKey: string, gateway: Gateway, history: seq<Json>)
    requires TruthyOpt(Get(body, "userMessage")) && apiKey != ""
    requires Get(body, "conversationHistory") == Some(JArr(history))
    requires Get(body, "temperature") == Some(JNum("0"))
    ensures var call := Handle(body, Some(apiKey), gateway).call;
            && call.Some?
            && |call.value.messages| == |history| + 2
            && call.value.messages[1..|history| + 1] == history
            && call.value.messages[|history| + 1] == Message("user", body["userMessage"])
            && call.value.temperature == JNum("0")
  {
  }

  /** Without a key the answer is the echo of the message, whatever the
      gateway would have said. */
  lemma EchoWithoutKey(body: map<string, Json>, g1: Gateway, g2: Gateway)
    requires TruthyOpt(Get(body, "userMessage"))
    requires SpreadHistory(Get(body, "conversationHistory")).Spread?
    ensures Handle(body, None, g1) == Handle(body, None, g2)
    ensures Handle(body, None, g1) == Handled(Answer(map["reply" := JStr(Echo(body["userMessage"]))]), None)
  {
  }
}

=== FILE: widget.dfy ===
/** The `assistant-widget` edge function: a public endpoint keyed by an
    assistant's API key. A POST chats with the assistant; any other method
    returns its public configuration. The assistants table, the database
    error flag, `ANTIGRAVITY_API_KEY` and the gateway's answer are inputs. */
module Widget {

  import opened Js
  import opened Chat

  const DefaultPrompt := "You are a helpful voice assistant."
  const Model := "google/gemini-3-flash-preview"
  const Apology := "Sorry, I couldn't process that."
  const Greeting := "Hi! How can I help you today?"
  const MissingApiKey := "Missing apiKey"
  const InvalidApiKey := "Invalid API key"
  const RateLimited := "Rate limited, try again later"
  const MissingGatewayKey := "ANTIGRAVITY_API_KEY not configured"

  /** A row of `voice_assistants`: its `api_key` and the selected columns. */
  datatype Row = Row(apiKey: Option<string>, columns: map<string, Json>)

  /** A selected column; SQL NULL and a column the row lacks are `null`. */
  function Column(r: Row, name: string): Json {
    if name in r.columns then r.columns[name] else JNull
  }

  datatype Request = Request(verb: string, queryKey: Option<string>, headerKey: Option<string>, body: Option<Json>)

  datatype Env = Env(rows: seq<Row>, dbError: bool, gatewayKey: Option<string>, gateway: Gateway)

  /** `searchParams.get("apiKey") || headers.get("x-voxai-api-key")` */
  function ResolveKey(queryKey: Option<string>, headerKey: Option<string>): (k: Option<string>)
    ensures TruthyStr(queryKey) ==> k == queryKey
    ensures !TruthyStr(queryKey) ==> k == headerKey
  {
    if TruthyStr(queryKey) then queryKey else headerKey
  }

  /** The rows whose `api_key` equals `key`, in table order. */
  function Matching(rows: seq<Row>, key: string): (m: seq<Row>)
    ensures forall r :: r in m <==> r in rows && r.apiKey == Some(key)
    ensures |m| <= |rows|
  {
    if |rows| == 0 then []
    else (if rows[0].apiKey == Some(key) then [rows[0]] else []) + Matching(rows[1..], key)
  }

  /** `.eq("api_key", key).maybeSingle()` followed by `if (error ||
      !assistant)`: the one matching row; none, several (an error of
      `maybeSingle`) or a database error all fail. */
  function LookUp(env: Env, key: string): (a: Option<Row>)
    ensures a.Some? <==> !env.dbError && |Matching(env.rows, key)| == 1
    ensures a.Some? ==> a.value in env.rows && a.value.apiKey == Some(key)
  {
    var m := Matching(env.rows, key);
    if env.dbError || |m| != 1 then None else Some(m[0])
  }

  /** The public configuration of an assistant (the answer to a GET). */
  function Config(a: Row): (c: map<string, Json>)
    ensures c.Keys == {"id", "name", "language", "conversationMode", "voiceProvider", "voiceId", "firstMessage"}
    ensures c["conversationMode"] == Column(a, "conversation_mode") && c["voiceId"] == Column(a, "voice_id")
    ensures TruthyOpt(Prop(Some(Column(a, "tools")), "firstMessage")) ==>
              c["firstMessage"] == Prop(Some(Column(a, "tools")), "firstMessage").value
    ensures !TruthyOpt(Prop(Some(Column(a, "tools")), "firstMessage")) ==> c["firstMessage"] == JStr(Greeting)
    ensures "system_prompt" !in c && "temperature" !in c && "api_key" !in c
  {
    map[
      "id" := Column(a, "id"),
      "name" := Column(a, "name"),
      "language" := Column(a, "language"),
      "conversationMode" := Column(a, "conversation_mode"),
      "voiceProvider" := Column(a, "voice_provider"),
      "voiceId" := Column(a, "voice_id"),
      "firstMessage" := Or(Prop(Some(Column(a, "tools")), "firstMessage"), JStr(Greeting))]
  }

  /** The answer, whether the table was read, and the completion request
      made, if any. */
  datatype Handled = Handled(reply: Reply, lookedUp: bool, call: Option<Completion>)

  /** The POST branch, once the assistant is known. */
  function Converse(a: Row, body: Option<Json>, env: Env): (h: Handled)
    ensures h.lookedUp
    ensures body.None? || body == Some(JNull) ==> h.reply == Failure(500, Runtime) && h.call.None?
    ensures body.Some? && body.value != JNull && !TruthyOpt(Prop(body, "userMessage")) ==>
              h.reply == Failure(400, Text(UserMessageRequired)) && h.call.None?
    ensures body.Some? && body.value != JNull && TruthyOpt(Prop(body, "userMessage")) && !TruthyStr(env.gatewayKey) ==>
              h.reply == Failure(500, Text(MissingGatewayKey)) && h.call.None?
    ensures body.Some? && body.value != JNull && TruthyOpt(Prop(body, "userMessage")) && TruthyStr(env.gatewayKey) ==>
              && (SpreadHistory(Prop(body, "conversationHistory")).Spread? <==> h.call.Some?)
              && (SpreadHistory(Prop(body, "conversationHistory")).NotIterable? ==> h.reply == Failure(500, Runtime))
    ensures h.call.Some? ==>
              && body.Some? && TruthyOpt(Prop(body, "userMessage")) && TruthyStr(env.gatewayKey)
              && var history := SpreadHistory(Prop(body, "conversationHistory"));
                 && history.Spread?
                 && h.call.value == Completion("Bearer " + env.gatewayKey.value, Model,
                      Assemble(Or(Some(Column(a, "system_prompt")), JStr(DefaultPrompt)), history.items,
                               Prop(body, "userMessage").value),
                      Temperature(Some(Column(a, "temperature"))), MaxTokens)
    ensures h.call.Some? && !Ok(env.gateway.status) ==>
              h.reply == if env.gateway.status == 429 then Failure(429, Text(RateLimited))
                         else Failure(500, Text(GatewayError("AI error", env.gateway)))
    ensures h.call.Some? && Ok(env.gateway.status) && env.gateway.json.Some? && env.gateway.json.value != JNull ==>
              h.reply == Answer(map[
                "reply" := ReplyOf(env.gateway.json.value, Apology).value,
                "assistantId" := Column(a, "id"),
                "assistantName" := Column(a, "name")])
  {
    if body.None? || body.value == JNull then Handled(Failure(500, Runtime), true, None)
    else
      var userMessage := Prop(body, "userMessage");
      if !TruthyOpt(userMessage) then Handled(Failure(400, Text(UserMessageRequired)), true, None)
      else if !TruthyStr(env.gatewayKey) then Handled(Failure(500, Text(MissingGatewayKey)), true, None)
      else match SpreadHistory(Prop(body, "conversationHistory"))
        case NotIterable => Handled(Failure(500, Runtime), true, None)
        case Spread(history) =>
          var messages := Assemble(Or(Some(Column(a, "system_prompt")), JStr(DefaultPrompt)), history, userMessage.value);
          var call := Completion("Bearer " + env.gatewayKey.value, Model, messages,
                                 Temperature(Some(Column(a, "temperature"))), MaxTokens);
          var g := env.gateway;
          if !Ok(g.status) then
            if g.status == 429 then Handled(Failure(429, Text(RateLimited)), true, Some(call))
            else Handled(Failure(500, Text(GatewayError("AI error", g))), true, Some(call))
          else match g.json
            case None => Handled(Failure(500, Runtime), true, Some(call))
            case Some(data) =>
              match ReplyOf(data, Apology)
              case None => Handled(Failure(500, Runtime), true, Some(call))
              case Some(reply) =>
                Handled(Answer(map["reply" := reply, "assistantId" := Column(a, "id"), "assistantName" := Column(a, "name")]),
                        true, Some(call))
  }

  /** The function. */
  function Handle(req: Request, env: Env): (h: Handled)
    ensures req.verb == "OPTIONS" ==> h == Handled(Preflight, false, None)
    ensures req.verb != "OPTIONS" && !TruthyStr(ResolveKey(req.queryKey, req.headerKey)) ==>
              h == Handled(Failure(401, Text(MissingApiKey)), false, None)
    ensures h.lookedUp <==> req.verb != "OPTIONS" && TruthyStr(ResolveKey(req.queryKey, req.headerKey))
    ensures h.lookedUp && LookUp(env, ResolveKey(req.queryKey, req.headerKey).value).None? ==>
              h == Handled(Failure(404, Text(InvalidApiKey)), true, None)
    ensures h.lookedUp && LookUp(env, ResolveKey(req.queryKey, req.headerKey).value).Some? ==>
              var a := LookUp(env, ResolveKey(req.queryKey, req.headerKey).value).value;
              h == if req.verb == "POST" then Converse(a, req.body, env) else Handled(Answer(Config(a)), true, None)
    ensures h.call.Some? ==> req.verb == "POST"
  {
    if req.verb == "OPTIONS" then Handled(Preflight, false, None)
    else
      var key := ResolveKey(req.queryKey, req.headerKey);
      if !TruthyStr(key) then Handled(Failure(401, Text(MissingApiKey)), false, None)
      else match LookUp(env, key.value)
        case None => Handled(Failure(404, Text(InvalidApiKey)), true, None)
        case Some(a) =>
          if req.verb == "POST" then Converse(a, req.body, env) else Handled(Answer(Config(a)), true, None)
  }

  /** The query key takes precedence: while it is non-empty the header key
      makes no difference to the answer, and without it the request is
      answered as if only the header key had been sent. */
  lemma KeyPrecedence(req: Request, env: Env, otherHeader: Option<string>)
    ensures TruthyStr(req.queryKey) ==> Handle(req.(headerKey := otherHeader), env) == Handle(req, env)
    ensures !TruthyStr(req.queryKey) ==> Handle(req.(queryKey := None), env) == Handle(req, env)
  {
  }

  /** A key that no row carries is refused with 404 whatever else the
      request holds, and no completion is requested. */
  lemma UnknownKeyRefused(req: Request, env: Env)
    requires req.verb != "OPTIONS" && TruthyStr(ResolveKey(req.queryKey, req.headerKey))
    requires forall i | 0 <= i < |env.rows| :: env.rows[i].apiKey != ResolveKey(req.queryKey, req.headerKey)
    ensures Handle(req, env) == Handled(Failure(404, Text(InvalidApiKey)), true, None)
  {
    var key := ResolveKey(req.queryKey, req.headerKey).value;
    MatchingNone(env.rows, key);
  }

  /** The configuration a GET returns never contains the assistant's
      system prompt or key, and depends only on the row the key selects. */
  lemma ConfigIndependentOfOtherRows(req: Request, env: Env, others: seq<Row>)
    requires req.verb == "GET" && TruthyStr(ResolveKey(req.queryKey, req.headerKey))
    requires LookUp(env, ResolveKey(req.queryKey, req.headerKey).value).Some?
    requires forall i | 0 <= i < |others| :: others[i].apiKey != ResolveKey(req.queryKey, req.headerKey)
    ensures var h := Handle(req, env.(rows := env.rows + others));
            && h.reply.Answer?
            && h == Handle(req, env)
            && "system_prompt" !in h.reply.body
  {
    var key := ResolveKey(req.queryKey, req.headerKey).value;
    MatchingAppend(env.rows, others, key);
    MatchingNone(others, key);
    assert Matching(env.rows + others, key) == Matching(env.rows, key);
  }

  lemma {:induction false} MatchingNone(rows: seq<Row>, key: string)
    requires forall i | 0 <= i < |rows| :: rows[i].apiKey != Some(key)
    ensures Matching(rows, key) == []
  {
    if |rows| > 0 {
      MatchingNone(rows[1..], key);
    }
  }

  lemma {:induction false} MatchingAppend(xs: seq<Row>, ys: seq<Row>, key: string)
    ensures Matching(xs + ys, key) == Matching(xs, key) + Matching(ys, key)
  {
    if |xs| == 0 {
      assert xs + ys == ys;
    } else {
      assert (xs + ys)[1..] == xs[1..] + ys;
      MatchingAppend(xs[1..], ys, key);
    }
  }
}
